=== FILE: README.md ===
# speech_to_action: the transcript → task → event core in Dafny

The backend of speech_to_action turns a meeting transcript into tasks and
calendar events. A language model is asked to list the tasks as JSON, the
reply is sanitised and parsed, and every task draft is stored. Each draft
that says it can be scheduled also gets a local calendar event. This project
models the deterministic middle of that pipeline and proves properties of it:

- `Text`: the string operations the sanitisers use.
  - JavaScript's `trim()`, over the ECMAScript whitespace set.
  - The global removal of Markdown fence markers (`/```json|```/g` and `/```/g`), as a left-to-right scan.
  - The outer-brace span that `/\{[\s\S]*\}/` matches.
- `JsonValues`: parsed JSON values. `Truthy` is JavaScript truthiness. `Get(v, key)` is JavaScript's property read `v.key`: the field's value when `v` is an object that has it, and `undefined` (`None`) when `v` is an object without it, a boolean, a number, a string or an array. Reading a key of `null` throws a TypeError in JavaScript; `Get` gives `None` there, and every caller models the throw's outcome itself:
  - a parsed `null` reply becomes `[]` in both extractors, through their `try`/`catch` (`TasksField` gives `None`);
  - a `null` draft is stored as a blank task and then makes the route answer 500 when its `canSchedule` is read (`Routes.SaveDraft` tests for it before the gate);
  - the spread `{...null}` adds no field, so `Models.TaskFromDraft` is unaffected.
- `TaskExtractor`: the server's `extractTasks`.
  - `ModelCall.Refuses` is the `!transcript` guard it shares with `getSummary`, and `ReplyTasks` the drafts it returns for a reply; the route is written over these two, so it sees only the extractor's outcome.
  - It rejects a falsy transcript before any model call.
  - It builds one prompt.
  - It parses the reply's outer-brace span.
  - It returns the `tasks` array, or `[]` on any failure.
- `ScratchExtractor`: the stand-alone variant in `backend/a.js`. It strips fences and trims, has no transcript check and never raises.
- `Summary`: `getSummary`, with its own fence strip, trim and `null` on model failure.
- `Models`:
  - the Transcription, Task and Event records;
  - the casts the document layer applies to a task draft;
  - the in-memory store that stands in for the database, with its invariants (`Valid`: fresh ids; `Linked`: the task ↔ event links agree both ways).
- `EventService`: `createLocalEvent`.
  - The due date is matched against the recurrence tokens "Daily", "Weekly" and "Monthly".
  - Start and end times come from the clock.
  - Task fields are copied onto the event.
  - A failed save gives `null`.
- `Routes`: `PUT /transcription/:id`, `POST /extract-tasks/:id` and `GET /events/:id` as pure transitions over the store.
- `Scenarios`: two end-to-end runs of `POST /extract-tasks/:id` with concrete drafts.

Effects become inputs:
- The language model's reply is an `Option<string>`; `None` is a failed call.
- `JSON.parse` is a function `string -> Option<Json>`.
- The two clock readings `createLocalEvent` takes are a `Clock(start, later)`.
- Whether the event save succeeds is a `bool`.
- Document ids come from the store's `next` counter.

Where the system's own documentation and its code differ, the model follows the code:
- The server extractor only cuts the brace span. Only the scratch variant strips fences.
- Neither extractor distinguishes failure kinds: every failure inside the try block gives `[]`.
- The recurrence test is case-sensitive: "daily" is not a recurrence (`EventService.LowerCaseIsNotRecurring`).
- A date-string due date such as "2025-03-14" is not parsed; its event ends at a clock reading (`EventService.StoredTaskEndsAtClock`). The `instanceof Date` branch cannot fire, because the Task schema stores `due_date` as a String.
- The start and end times are two separate clock readings, so they need not be equal.
- The route's scheduling gate reads the raw draft's `canSchedule` by JavaScript truthiness, not the Boolean the task stores. A draft with `"canSchedule": "false"` is stored with `canSchedule == false` and still gets an event (`Routes.StringFalseIsScheduled`).
- A draft the document layer rejects makes the route answer 500. The other drafts' tasks and events stay stored: under `Promise.all` their work was already started and still completes after the 500 is sent.
- Running extraction twice on one transcription stores the tasks twice. Nothing deduplicates them.

## Model

| member | source | states |
|---|---|---|
| Text.Trim | backend/src/middleware/task_extractor.js:32 | the result starts and ends with a non-whitespace character (or is empty) and is the part of the input left after removing an all-whitespace prefix and an all-whitespace suffix |
| Text.TrimFixed | backend/src/middleware/task_extractor.js:32 | text that neither starts nor ends with whitespace is its own trim |
| Text.TrimIdempotent | backend/src/middleware/getSummary.js:21 | trimming twice is trimming once |
| Text.RemoveFences | backend/a.js:25 | the global replace of "```json" or "```" (with tag "" it is getSummary.js:21's `/```/g`) never lengthens the text |
| Text.RemoveFencesOnlyDeletes | backend/a.js:25 | the replace only deletes: every character of the result, counted with multiplicity, comes from the input |
| Text.RemoveFencesLeavesNoFence | backend/a.js:25 | after the global removal of "```json" and "```" no run of three backticks is left, even where removals bring backticks together |
| Text.RemoveFencesNoop | backend/a.js:25 | text without backticks is left unchanged by the fence removal |
| Text.RemoveFencesSkipsPlainPrefix | backend/a.js:25 | a backtick-free prefix passes through the scan untouched and the scan then continues on the rest |
| Text.Clean | backend/a.js:25 | the cleaned reply contains no "```" and has no leading or trailing whitespace |
| Text.CleanIdempotent | backend/src/middleware/getSummary.js:21 | cleaning an already-cleaned string changes nothing |
| Text.CleanPlainText | backend/src/middleware/getSummary.js:21 | a string without backticks is only trimmed |
| Text.FencedRoundTrip | backend/a.js:25 | a backtick-free payload wrapped as "```json" + payload + "```" cleans to the same string as the bare payload |
| Text.FirstIndexOf | backend/src/middleware/task_extractor.js:27 | the result is the index of the first occurrence of the character; no earlier index holds it, and `None` means it does not occur |
| Text.LastIndexOf | backend/src/middleware/task_extractor.js:27 | the result is the index of the last occurrence of the character; no later index holds it |
| Text.BraceBounds | backend/src/middleware/task_extractor.js:27 | the match runs from the first "{" of the reply to the last "}" after it; there is no match exactly when no "{" has a "}" somewhere after it |
| Text.BraceSpan | backend/src/middleware/task_extractor.js:27-30 | a span exists exactly when some "{" is followed by a "}"; it is then the reply's slice from its first "{" to the last "}" after it, so it starts with "{" and ends with "}" |
| Text.TrimBraceSpan | backend/src/middleware/task_extractor.js:32 | trimming the matched span is a no-op |
| Text.OuterSpanUnique | backend/src/middleware/task_extractor.js:27 | the leftmost-longest brace match is unique |
| Text.BraceSpanIgnoresWrapping | backend/src/middleware/task_extractor.js:27 | text without braces before and after the payload does not change the matched span |
| Text.BracedTextIsItsSpan | backend/src/middleware/task_extractor.js:27 | a reply that starts with "{" and ends with "}" is matched whole |
| JsonValues.TasksField | backend/src/middleware/task_extractor.js:37-39 | the structure check `parsedData.tasks && Array.isArray(parsedData.tasks)` passes exactly when the `tasks` property is truthy and is an array, and it then yields that array |
| ModelCall.Prompt | backend/src/middleware/task_extractor.js:13-20 | a prompt is the fixed instruction text followed by the transcript verbatim; the server extractor, the scratch variant and the summariser each use it with their own instructions, all ending in "Transcript: " |
| ModelCall.PromptInjective | backend/src/middleware/task_extractor.js:13-20 | under the same instructions, distinct transcripts give distinct prompts |
| TaskExtractor.TasksFromReply | backend/src/middleware/task_extractor.js:27-41 | a reply without a brace span gives []; a non-empty result is the `tasks` array of the parsed, trimmed span, so tasks come back only when the match, the parse and the structure check all succeed |
| TaskExtractor.Extract | backend/src/middleware/task_extractor.js:8-46 | raises "Transcript is required" exactly when the transcript is null or empty, before any prompt; otherwise sends exactly one prompt; a failed model call yields [] |
| TaskExtractor.ExtractSuccess | backend/src/middleware/task_extractor.js:35-41 | when the span parses to an object with an array `tasks`, the result is exactly that array |
| TaskExtractor.ExtractNoBraces | backend/src/middleware/task_extractor.js:27-30 | a reply in which no "{" has a "}" after it yields [] and does not raise |
| TaskExtractor.ExtractInvalid | backend/src/middleware/task_extractor.js:35-45 | a span that does not parse, or parses without an array `tasks`, yields [] |
| TaskExtractor.ExtractIgnoresWrapping | backend/src/middleware/task_extractor.js:27 | fences or commentary without braces around the payload give the same result as the bare payload |
| ScratchExtractor.TasksFromReply | backend/a.js:25-36 | a cleaned reply that does not parse gives []; a non-empty result is the `tasks` array of the parsed cleaned reply |
| ScratchExtractor.Extract | backend/a.js:9-37 | never raises, sends exactly one prompt (its own instruction text, then the transcript) for every transcript including the empty one, and yields [] when the model call fails |
| ScratchExtractor.ExtractValidates | backend/a.js:25-37 | the result is the parsed `tasks` array when the cleaned reply parses to an object with an array `tasks`, [] when it does not parse, and non-empty only when parse and structure check both succeeded |
| ScratchExtractor.ExtractFencedRoundTrip | backend/a.js:25-28 | a backtick-free payload fenced as "```json" … "```" gives the same tasks as the bare payload |
| ScratchExtractor.BareFenceSwallowsJsonPrefix | backend/a.js:25 | since "```json" is tried before "```", a bare fence followed by "jsonify" cleans to "ify" |
| Summary.CleanSummary | backend/src/middleware/getSummary.js:21 | the cleaned summary contains no "```" and has no leading or trailing whitespace |
| Summary.GetSummary | backend/src/middleware/getSummary.js:8-28 | raises exactly when the transcript is falsy; otherwise sends exactly one prompt, its own instruction text followed by the transcript; the result is null exactly when the model call failed, and a returned summary is fence-free and trimmed |
| Summary.PlainReplyOnlyTrimmed | backend/src/middleware/getSummary.js:21 | a reply without backticks comes back trimmed and otherwise unchanged |
| Summary.CleanSummaryIdempotent | backend/src/middleware/getSummary.js:21 | cleaning a cleaned summary changes nothing |
| Summary.FencedReplyUnwrapped | backend/src/middleware/getSummary.js:21 | a backtick-free reply wrapped in "```" fences summarises to the same text as the bare reply |
| Models.CastString | backend/src/models/Task.js:5-9 | a String field rejects exactly arrays and the objects without a non-empty string `_id`; it keeps a string as is, casts an object with such an `_id` to that `_id`, writes a boolean as "true"/"false" and an integer in decimal, and leaves null or missing unset |
| Models.CastBoolean | backend/src/models/Task.js:10 | a Boolean field stores true exactly for true, 1, "true", "1" and "yes", and false exactly for false, 0, "false", "0" and "no"; null or missing stay unset |
| Models.TaskFromDraft | backend/src/routes/transcription.js:94-99 | a draft is accepted exactly when every schema field casts; the stored task holds the cast `title`, `description`, `due_date`, `assigned_to`, `priority` and `canSchedule`, is linked to the route's transcription, whatever the draft says, and starts with no event |
| Models.NonObjectDraftIsBlank | backend/src/routes/transcription.js:94-97 | a draft that is not an object contributes no field: the task holds only the transcription link |
| Models.AtMostOneEventPerTask | backend/src/models/Events.js:10-13 | in a linked store no two events belong to the same task |
| EventService.DueValueOf | backend/src/models/Task.js:7 | a stored task's due date is never a Date value |
| EventService.DraftEvent | backend/src/service/eventService.js:16-26 | the event starts at the first clock reading and copies title, description, assignee, priority and transcription from the task, with the task's id as `task_id` |
| EventService.IsRecurrenceToken | backend/src/service/eventService.js:10 | `includes` holds exactly for the due-date strings "Daily", "Weekly" and "Monthly" |
| EventService.RecurrenceIffToken | backend/src/service/eventService.js:9-11 | `recurrence` is set exactly when the due date is "Daily", "Weekly" or "Monthly", and then equals it; otherwise it is null |
| EventService.LowerCaseIsNotRecurring | backend/src/service/eventService.js:10 | the recurrence test is case-sensitive: "daily" gives no recurrence |
| EventService.EndTimeSource | backend/src/service/eventService.js:10-14 | the end time copies the due date only when it is a Date value; otherwise it is the second clock reading |
| EventService.StoredTaskEndsAtClock | backend/src/service/eventService.js:13-14 | for a stored task the end time is always the second clock reading, and a date string such as "2025-03-14" is not a recurrence |
| EventService.CreateLocalEvent | backend/src/service/eventService.js:3-34 | a successful save stores the drafted event under a fresh id and returns that id; a failed save changes nothing and returns null; tasks and transcriptions are untouched |
| EventService.IgnoresScheduleFlag | backend/src/service/eventService.js:3-14 | the event does not depend on the task's `canSchedule` or event link |
| EventService.CreateLocalEventValid | backend/src/service/eventService.js:16-29 | creating an event keeps every stored id below the id counter |
| Routes.UpdateTranscript | backend/src/routes/transcription.js:64-76 | a body transcript that does not cast to a String answers 500 and changes nothing; otherwise an unknown id answers 404 and changes nothing; otherwise the answer is 200 with the updated record, whose transcript is the cast value, or unchanged when the body has no `transcript`; its other fields, every other record and all tasks and events stay |
| Routes.UpdateTranscriptConsistent | backend/src/routes/transcription.js:64-72 | the update keeps the store's invariants |
| Routes.SaveDraft | backend/src/routes/transcription.js:93-111 | a draft is rejected exactly when a field fails to cast; otherwise its task is stored under a fresh id, and it carries an event id exactly when the raw draft's `canSchedule` is truthy and the event was saved, in which case that event is stored for that task; earlier records are kept; a rejected draft leaves the store unchanged, and otherwise the store gains exactly that task and, if any, that event |
| Routes.SaveDraftConsistent | backend/src/routes/transcription.js:102-108 | one draft's work keeps the store's invariants, so the task and its event name each other |
| Routes.AddTaskConsistent | backend/src/routes/transcription.js:99 | storing a fresh task without an event keeps the store's invariants |
| Routes.LinkEventConsistent | backend/src/routes/transcription.js:103-106 | creating a task's event and recording its id on the task keeps the store's invariants |
| Routes.KeepsTransitive | backend/src/routes/transcription.js:92-112 | a store that grows by fresh ids twice has grown by fresh ids |
| Routes.SaveDrafts | backend/src/routes/transcription.js:92-112 | one run per draft, and the store only grows by fresh ids |
| Routes.SaveDraftsAgree | backend/src/routes/transcription.js:93-108 | every run agrees with its own draft: rejection, casting, transcription link and event gate |
| Routes.RecordedKept | backend/src/routes/transcription.js:92-112 | a later draft's work does not disturb an earlier draft's task and event |
| Routes.CreatedIdsSnoc | backend/src/routes/transcription.js:92-112 | if a store holds the earlier runs' additions and then gains one more run's task id and, if any, its event id, it holds the additions of all the runs |
| Routes.SaveDraftsAddsOnly | backend/src/routes/transcription.js:92-112 | the pass over the drafts adds exactly the runs' tasks and events to the store, and nothing else |
| Routes.SavedTasksIds | backend/src/routes/transcription.js:114 | when every draft saved, the ids the runs added are exactly the listed tasks' ids and their event ids |
| Routes.SaveDraftsRecorded | backend/src/routes/transcription.js:99-108 | after the pass every run's task and event are stored as reported, under ids allocated during the pass |
| Routes.SaveDraftsOrdered | backend/src/routes/transcription.js:92-112 | the created tasks' ids increase in draft order |
| Routes.SaveDraftsConsistent | backend/src/routes/transcription.js:92-112 | the pass over all drafts keeps the store's invariants |
| Routes.SavedTasks | backend/src/routes/transcription.js:114 | the response lists every run's task, one per run, in run order |
| Routes.SavedTasksIncrease | backend/src/routes/transcription.js:114 | the listed tasks' ids increase when the runs' ids do |
| Routes.ExtractTasks | backend/src/routes/transcription.js:78-120 | an unknown transcription answers 404 and changes nothing; every answer is 200, 404 or the 500 "Error extracting tasks"; the store only grows by fresh ids |
| Routes.ExtractTasksCallsExtractor | backend/src/routes/transcription.js:89-119 | the route depends on the extractor only through its outcome: when `extractTasks` raises, the answer is the 500 "Error extracting tasks" with nothing stored; otherwise the drafts worked through are exactly the list it returned |
| Routes.ExtractTasksShape | backend/src/routes/transcription.js:89-119 | once the transcript is accepted, the answer is 200 with the saved list and the pass's store when every draft saved, and the 500 with the pass's store otherwise |
| Routes.ExtractTasksSaved | backend/src/routes/transcription.js:92-114 | a 200 answer comes from a pass in which every draft saved; it lists the saved tasks and leaves the store that pass produced |
| Routes.SavedTasksListDrafts | backend/src/routes/transcription.js:92-114 | when every draft of a pass saved, the listed tasks correspond one to one, in order, to the drafts, and the store gains exactly them and their events |
| Routes.ExtractRejectsEmptyTranscript | backend/src/routes/transcription.js:89-119 | a null or empty stored transcript makes the route answer 500 with nothing stored |
| Routes.ExtractNothingFound | backend/src/routes/transcription.js:89-114 | when extraction yields no drafts the answer is 200 with an empty task list and the store is unchanged |
| Routes.ExtractOneTaskPerDraft | backend/src/routes/transcription.js:92-114 | on success the answer lists one stored task per draft, in draft order. Each task is the draft's cast fields, linked to the route's transcription, under a fresh id. It has an event exactly when the raw draft's `canSchedule` is truthy and the event was saved, and that event is stored for that task. The store gains exactly the listed tasks and their events, and nothing else |
| Routes.ExtractIdsIncrease | backend/src/routes/transcription.js:92-114 | on success the listed tasks' ids increase in draft order |
| Routes.Schedulable | backend/src/routes/transcription.js:102 | the gate `task.canSchedule` opens only for an object draft whose `canSchedule` is present and not null, and any array or object value opens it, even an empty one |
| Routes.SaveDraftsFalsyFlagNoEvent | backend/src/routes/transcription.js:102 | in the pass over any draft list, a draft whose `canSchedule` is falsy never gets an event |
| Routes.ExtractTasksConsistent | backend/src/routes/transcription.js:102-108 | extraction keeps the store's invariants: task and event links agree both ways, so a task has at most one event |
| Routes.StringFalseIsScheduled | backend/src/routes/transcription.js:102-103 | a draft with `"canSchedule": "false"` is stored with `canSchedule == false` and still gets an event |
| Routes.LeastExists | backend/src/routes/transcription.js:124-126 | a non-empty set of ids has a least element |
| Routes.ListsEventsExtend | backend/src/routes/transcription.js:124-126 | appending a matching event with a larger id keeps the listing correct and ordered |
| Routes.CoversStep | backend/src/routes/transcription.js:124-126 | examining one more event keeps every matching examined event listed |
| Routes.ListedBeforeStep | backend/src/routes/transcription.js:124-126 | moving the least pending id into the listing keeps the listing ahead of the pending ids |
| Routes.Least | backend/src/routes/transcription.js:124-126 | returns the least element of a non-empty set of ids |
| Routes.ListEvents | backend/src/routes/transcription.js:122-133 | answers 200 with exactly the stored events whose transcription id is the route id, each with its stored record, in increasing id order |
| Scenarios.OneDraftRoute | backend/src/routes/transcription.js:92-114 | with a single draft whose task is created and whose `canSchedule` read does not throw (the draft is not `null`), the answer is 200 listing exactly that task |
| Scenarios.SendReportRun | backend/src/routes/transcription.js:93-110 | a draft with `canSchedule: false` is stored unlinked and makes no event |
| Scenarios.StandupRun | backend/src/service/eventService.js:9-12 | when the event's save succeeds, a schedulable "Daily" draft gets a daily event that starts and ends at the two clock readings and belongs to the task; the store gains exactly that task and that event |
| Scenarios.BareDrafts | backend/src/middleware/task_extractor.js:27-41 | a reply that is exactly the braced JSON payload yields the payload's drafts |
| Scenarios.FencedDrafts | backend/src/middleware/task_extractor.js:27-41 | the same payload inside a "```json" fence yields the same drafts |
| Scenarios.UnschedulableTaskHasNoEvent | backend/src/routes/transcription.js:78-120 | one unschedulable draft: 200 with one task, linked to the transcription, without an event; exactly one task added; events unchanged |
| Scenarios.FencedDailyTaskIsScheduled | backend/src/routes/transcription.js:78-120 | a fenced reply with one daily draft, when the event's save succeeds: 200 with one task, whose event is stored, recurs "Daily", spans the two clock readings and belongs to that task; the store gains exactly that one task and that one event |

## Left out

- The Gemini client and `generateContent`: the model's reply is an input, and `None` stands for any failed call.
- `JSON.parse`: the parser is a function parameter, and the JSON grammar is not modelled. `JNum` holds integers only, so fractional numbers are out.
- Models.CastString: non-integer numbers are not covered, because `Json` has no fractional numbers. Integers of magnitude 10^21 or more are written in decimal, whereas JavaScript writes them in exponent form ("1e+21"); `JSON.parse` would also already have rounded any integer above 2^53, and `JNum` is exact.
- Mongoose persistence beyond the casts above.
  - Strict-mode dropping of unknown fields is modelled implicitly: `Task` has no slot for them.
  - A draft's own `_id` or `event_id` key is ignored rather than cast.
  - The difference between an absent and a `null` field is not kept.
  - ObjectId casting of route ids, and database errors from `findById`, `findByIdAndUpdate`, `find`, `Task.create` and `newTask.save()`, are not modelled. The 500 answers those would cause are absent, except the one for a rejected draft.
  - A failed `event.save()` is modelled: `DraftEnv.eventSaved` is false, `createLocalEvent` returns `null`, the task keeps no event, and the draft still counts as saved, so no 500 follows from it.
  - Events store `transcriptionId` as a String. The model keeps the transcription's id.
- Concurrency in `Promise.all`: the drafts' work is a left-to-right pass, and each draft's task id and event id are allocated together. In the running system the drafts interleave, so the ids each record receives can differ from the model's (for example, every task may be created before any event). Each draft touches only its own task and event, so the model's final store matches an interleaved run only up to which fresh id each record receives.
- Real dates and time zones: a clock reading is an integer. A Date-valued due date is a `DueValue` variant that a stored task never produces.
- `GET /transcription/:id`, the `/upload` handler (Deepgram, multer, the file system), server bootstrap and the frontend: outside this model.
- The demonstration call at the bottom of `backend/a.js`, and all logging.
- Routes.UpdateTranscript: an absent `transcript` leaves the record unchanged, as Mongoose 6 and later do by dropping an `undefined` key from the update. Older Mongoose versions would set the field to `null` instead.
- Routes.ListEvents: the listing is in increasing id (creation) order. The database's natural order is not a documented promise.
- Scenarios.UnschedulableTaskHasNoEvent: the parser is kept abstract, so the scenario assumes only what it returns for the payload.
- Scenarios.FencedDailyTaskIsScheduled: the parser is kept abstract, so the scenario assumes only what it returns for the payload.

=== FILE: event_service.dfy ===
/**
 `createLocalEvent(task)`: builds an event for a stored task, classifying its
 due date as a recurrence token, and saves it; a failed save yields `null`.
 The clock and the outcome of the save are inputs.
 */
module EventService {
  import opened Wrappers
  import opened Models

  /** The two clock readings the function takes: on entry (`start`) and when
      it fixes the end time (`later`). */
  datatype Clock = Clock(start: Time, later: Time)

  /** The runtime value of `task.due_date`: a string, a Date, or null. */
  datatype DueValue = DueText(text: string) | DueInstant(at: Time) | DueAbsent

  /** A stored task's due date. The schema declares it a String, so it is never
      a Date. */
  function DueValueOf(task: Task): (d: DueValue)
    ensures !d.DueInstant?
  {
    match task.dueDate
    case Some(s) => DueText(s)
    case None => DueAbsent
  }

  /** `["Daily", "Weekly", "Monthly"].includes(due)`: exact, case-sensitive
      string comparison. */
  predicate IsRecurrenceToken(due: DueValue): (b: bool)
    ensures b <==> due == DueText("Daily") || due == DueText("Weekly") || due == DueText("Monthly")
  {
    due.DueText? && due.text in RecurrenceTokens
  }

  /** The event `createLocalEvent` builds for the task `taskId` with due value `due`. */
  function DraftEvent(taskId: Id, task: Task, due: DueValue, clock: Clock): (e: Event)
    ensures e.startTime == clock.start
    ensures e.taskId == taskId && e.transcriptionId == task.transcriptionId
    ensures e.title == task.title && e.description == task.description
    ensures e.assignedTo == task.assignedTo && e.priority == task.priority
  {
    var recurrence := if IsRecurrenceToken(due) then Some(due.text) else None;
    var endTime :=
      if IsRecurrenceToken(due) then clock.later
      else if due.DueInstant? then due.at
      else clock.later;
    Event(task.title, task.description, clock.start, endTime, task.assignedTo,
          task.priority, taskId, recurrence, task.transcriptionId)
  }

  /** `recurrence` holds the due date exactly when it is "Daily", "Weekly" or
      "Monthly"; otherwise it is null. */
  lemma RecurrenceIffToken(taskId: Id, task: Task, due: DueValue, clock: Clock)
    ensures var e := DraftEvent(taskId, task, due, clock);
      && (e.recurrence.Some? <==> due.DueText? && (due.text == "Daily" || due.text == "Weekly" || due.text == "Monthly"))
      && (e.recurrence.Some? ==> e.recurrence.value == due.text)
  {
  }

  /** The comparison is case-sensitive: "daily" is not a recurrence. */
  lemma LowerCaseIsNotRecurring(taskId: Id, task: Task, clock: Clock)
    ensures DraftEvent(taskId, task, DueText("daily"), clock).recurrence == None
  {
    assert "daily" != "Daily";
  }

  /** The end time is a clock reading for recurring and string due dates alike;
      only a Date value would be copied. */
  lemma EndTimeSource(taskId: Id, task: Task, due: DueValue, clock: Clock)
    ensures var e := DraftEvent(taskId, task, due, clock);
      e.endTime == (if due.DueInstant? then due.at else clock.later)
  {
  }

  /** For a stored task the end time is always the second clock reading: a date
      string such as "2025-03-14" is not parsed. */
  lemma StoredTaskEndsAtClock(taskId: Id, task: Task, clock: Clock)
    ensures DraftEvent(taskId, task, DueValueOf(task), clock).endTime == clock.later
    ensures task.dueDate == Some("2025-03-14") ==>
      DraftEvent(taskId, task, DueValueOf(task), clock).recurrence == None
  {
  }

  /** `createLocalEvent(task)` against the store: on a successful save the event
      is stored under a fresh id, which is returned; on failure nothing changes
      and the result is `None` (the code's `null`). */
  function CreateLocalEvent(st: Store, taskId: Id, task: Task, clock: Clock, saved: bool): (r: (Store, Option<Id>))
    ensures r.1.Some? <==> saved
    ensures !saved ==> r.0 == st
    ensures saved ==> r.1 == Some(st.next) && r.0.next == st.next + 1
    ensures r.0.transcriptions == st.transcriptions && r.0.tasks == st.tasks
    ensures saved ==> r.0.events == st.events[st.next := DraftEvent(taskId, task, DueValueOf(task), clock)]
  {
    if saved then
      var id := st.next;
      (st.(events := st.events[id := DraftEvent(taskId, task, DueValueOf(task), clock)], next := id + 1), Some(id))
    else (st, None)
  }

  /** The event does not depend on the task's `canSchedule` or `eventId`:
      deciding whether to schedule is the caller's business. */
  lemma IgnoresScheduleFlag(st: Store, taskId: Id, task: Task, clock: Clock, saved: bool,
                            flag: Option<bool>, link: Option<Id>)
    ensures CreateLocalEvent(st, taskId, task.(canSchedule := flag, eventId := link), clock, saved)
         == CreateLocalEvent(st, taskId, task, clock, saved)
  {
  }

  /** Creating an event keeps the store's ids fresh. */
  lemma CreateLocalEventValid(st: Store, taskId: Id, task: Task, clock: Clock, saved: bool)
    requires Valid(st)
    ensures Valid(CreateLocalEvent(st, taskId, task, clock, saved).0)
  {
  }
}

=== FILE: json.dfy ===
/**
 JSON values as `JSON.parse` returns them, together with the two JavaScript
 operations the pipeline performs on them: property access and truthiness.
 The parser itself is not modelled; callers receive it as a function.
 */
module JsonValues {
  import opened Wrappers

  /** A parsed JSON value. Numbers are restricted to integers. */
  datatype Json =
    | JNull
    | JBool(b: bool)
    | JNum(n: int)
    | JStr(s: string)
    | JArr(items: seq<Json>)
    | JObj(fields: map<string, Json>)

  /** `JSON.parse` as an opaque capability: `None` stands for a thrown SyntaxError. */
  type Parser = string -> Option<Json>

  /** `v[key]` for a key that no String or Array prototype defines: only an
      object's own field is found, and a boolean, number, string or array reads
      as `undefined` (`None`). On `null` JavaScript throws a TypeError instead;
      `Get` gives `None` there, and each caller reaches the thrown outcome by
      itself: the extractors' catch blocks answer `[]` exactly as `TasksField`'s
      `None` does, `Routes.SaveDraft` tests for a `null` draft before it reads
      `canSchedule`, and the spread `{...null}` in `Models.TaskFromDraft` adds
      no field. */
  function Get(v: Json, key: string): (r: Option<Json>)
    ensures r.Some? <==> v.JObj? && key in v.fields
    ensures r.Some? ==> r.value == v.fields[key]
  {
    if v.JObj? && key in v.fields then Some(v.fields[key]) else None
  }

  /** JavaScript truthiness of a property read; `undefined` is falsy. */
  predicate Truthy(v: Option<Json>) {
    match v
    case None => false
    case Some(JNull) => false
    case Some(JBool(b)) => b
    case Some(JNum(n)) => n != 0
    case Some(JStr(s)) => s != ""
    case Some(JArr(_)) => true
    case Some(JObj(_)) => true
  }

  /** The structure test `parsedData.tasks && Array.isArray(parsedData.tasks)`: the task
      array when the parsed value is an object with an array-valued `tasks` field.
      An array is always truthy, so the truthiness test adds nothing. */
  function TasksField(v: Json): (r: Option<seq<Json>>)
    ensures r.Some? <==> Truthy(Get(v, "tasks")) && Get(v, "tasks").value.JArr?
    ensures r.Some? ==> Get(v, "tasks") == Some(JArr(r.value))
  {
    match Get(v, "tasks")
    case Some(JArr(items)) => Some(items)
    case _ => None
  }
}

=== FILE: model_call.dfy ===
/**
 The outcome of a function that prompts the language model. The model itself
 is an input: its reply is `Some(text)`, or `None` when `generateContent` or
 reading the response text throws.
 */
module ModelCall {
  import opened Wrappers

  /** `Raised(message)`: the function threw before prompting the model.
      `Returned(prompts, value)`: it returned `value` after sending exactly the
      prompts listed, in order. */
  datatype Call<T> =
    | Raised(message: string)
    | Returned(prompts: seq<string>, value: T)

  /** The `!transcript` guard that `extractTasks` and `getSummary` both run
      before any prompt: `null`, `undefined` (both `None`) and "" are falsy. */
  predicate Refuses(transcript: Option<string>) {
    transcript.None? || transcript.value == ""
  }

  /** The label each prompt puts in front of the transcript. */
  const TranscriptLabel: string := "Transcript: "

  /** A prompt: fixed instruction text, then the transcript verbatim. */
  function Prompt(instructions: string, transcript: string): (p: string)
    ensures |p| == |instructions| + |transcript|
    ensures p[..|instructions|] == instructions && p[|instructions|..] == transcript
  {
    instructions + transcript
  }

  /** Under the same instructions, distinct transcripts give distinct prompts:
      nothing of the transcript is lost. */
  lemma PromptInjective(instructions: string, a: string, b: string)
    requires Prompt(instructions, a) == Prompt(instructions, b)
    ensures a == b
  {
    assert a == Prompt(instructions, a)[|instructions|..];
  }
}

=== FILE: models.dfy ===
/**
 The persisted records (Transcription, Task and Event schemas), the casts the
 document layer applies when a task draft is saved, and the in-memory store
 that stands in for the database.
 */
module Models {
  import opened Wrappers
  import opened JsonValues

  /** Document ids, handed out by the store in increasing order. */
  type Id = nat

  /** A clock reading. */
  type Time = int

  /** Every schema field is optional; `None` is a `null` or missing field. */
  datatype Transcription = Transcription(
    filePath: Option<string>,
    transcript: Option<string>,
    summary: Option<string>)

  /** A task. `dueDate` is declared as a String, so a persisted task never holds
      a Date there; `priority` is free text; `canSchedule` is a Boolean. */
  datatype Task = Task(
    title: Option<string>,
    description: Option<string>,
    dueDate: Option<string>,
    assignedTo: Option<string>,
    priority: Option<string>,
    canSchedule: Option<bool>,
    transcriptionId: Option<Id>,
    eventId: Option<Id>)

  /** A calendar event. `recurrence` and `transcriptionId` are nullable strings
      in the schema (the latter holding the transcription id, not a reference). */
  datatype Event = Event(
    title: Option<string>,
    description: Option<string>,
    startTime: Time,
    endTime: Time,
    assignedTo: Option<string>,
    priority: Option<string>,
    taskId: Id,
    recurrence: Option<string>,
    transcriptionId: Option<Id>)

  /** The recurrence values the Event schema anticipates. */
  const RecurrenceTokens: seq<string> := ["Daily", "Weekly", "Monthly"]

  // ---------------------------------------------------------------------------
  // Casting a draft field to its schema type

  /** A cast either produces the stored value or rejects the document. */
  datatype Cast<T> = Cast(value: T) | CastError

  function DigitText(d: nat): string
    requires d < 10
  {
    ["0123456789"[d]]
  }

  function NatText(n: nat): string
    decreases n
  {
    if n < 10 then DigitText(n) else NatText(n / 10) + DigitText(n % 10)
  }

  /** `String(n)` for an integer of magnitude below 10^21 (larger ones print
      in exponent form in JavaScript). */
  function IntText(n: int): string {
    if n < 0 then "-" + NatText(-n) else NatText(n)
  }

  /** An object that stands for a document: its own `_id` is a non-empty
      string (a truthy string, as the cast tests it). */
  predicate HasStringId(fields: map<string, Json>) {
    "_id" in fields && fields["_id"].JStr? && fields["_id"].s != ""
  }

  /** Casting a JSON field to a String path: strings are kept, numbers and
      booleans become their text, `null`/missing stay unset, an object whose
      `_id` is a non-empty string is replaced by that `_id`, and every other
      array or object is rejected (their `toString` is the default one, or is
      not callable). */
  function CastString(v: Option<Json>): (r: Cast<Option<string>>)
    ensures r.CastError? <==>
      v.Some? && (v.value.JArr? || (v.value.JObj? && !HasStringId(v.value.fields)))
    ensures v.Some? && v.value.JStr? ==> r == Cast(Some(v.value.s))
    ensures v.Some? && v.value.JObj? && HasStringId(v.value.fields) ==>
      r == Cast(Some(v.value.fields["_id"].s))
    ensures v.Some? && v.value.JBool? ==> r == Cast(Some(if v.value.b then "true" else "false"))
    ensures v.Some? && v.value.JNum? ==> r == Cast(Some(IntText(v.value.n)))
    ensures v.None? || v == Some(JNull) ==> r == Cast(None)
  {
    match v
    case None => Cast(None)
    case Some(JNull) => Cast(None)
    case Some(JStr(s)) => Cast(Some(s))
    case Some(JBool(b)) => Cast(Some(if b then "true" else "false"))
    case Some(JNum(n)) => Cast(Some(IntText(n)))
    case Some(JArr(_)) => CastError
    case Some(JObj(fields)) => if HasStringId(fields) then Cast(Some(fields["_id"].s)) else CastError
  }

  /** Casting a JSON field to a Boolean path: `true`, "true", 1, "1", "yes"
      store true; `false`, "false", 0, "0", "no" store false; `null`/missing
      stay unset; anything else is rejected. */
  function CastBoolean(v: Option<Json>): (r: Cast<Option<bool>>)
    ensures v.None? || v == Some(JNull) ==> r == Cast(None)
    ensures r == Cast(Some(true)) <==>
      v in {Some(JBool(true)), Some(JNum(1)), Some(JStr("true")), Some(JStr("1")), Some(JStr("yes"))}
    ensures r == Cast(Some(false)) <==>
      v in {Some(JBool(false)), Some(JNum(0)), Some(JStr("false")), Some(JStr("0")), Some(JStr("no"))}
  {
    match v
    case None => Cast(None)
    case Some(JNull) => Cast(None)
    case Some(JBool(b)) => Cast(Some(b))
    case Some(JNum(n)) => if n == 1 then Cast(Some(true)) else if n == 0 then Cast(Some(false)) else CastError
    case Some(JStr(s)) =>
      if s == "true" || s == "1" || s == "yes" then Cast(Some(true))
      else if s == "false" || s == "0" || s == "no" then Cast(Some(false))
      else CastError
    case Some(_) => CastError
  }

  /** `Task.create({...draft, transcriptionId})`: each schema field is read from
      the draft and cast; the route's transcription id replaces any field of
      that name in the draft; `event_id` starts out `null`. Fields outside the
      schema are dropped. */
  function TaskFromDraft(draft: Json, transcriptionId: Id): (r: Cast<Task>)
    ensures r.Cast? <==>
      && CastString(Get(draft, "title")).Cast?
      && CastString(Get(draft, "description")).Cast?
      && CastString(Get(draft, "due_date")).Cast?
      && CastString(Get(draft, "assigned_to")).Cast?
      && CastString(Get(draft, "priority")).Cast?
      && CastBoolean(Get(draft, "canSchedule")).Cast?
    ensures r.Cast? ==> r.value.transcriptionId == Some(transcriptionId) && r.value.eventId.None?
    ensures r.Cast? ==> r.value.title == CastString(Get(draft, "title")).value
    ensures r.Cast? ==> r.value.description == CastString(Get(draft, "description")).value
    ensures r.Cast? ==> r.value.dueDate == CastString(Get(draft, "due_date")).value
    ensures r.Cast? ==> r.value.assignedTo == CastString(Get(draft, "assigned_to")).value
    ensures r.Cast? ==> r.value.priority == CastString(Get(draft, "priority")).value
    ensures r.Cast? ==> r.value.canSchedule == CastBoolean(Get(draft, "canSchedule")).value
  {
    match (CastString(Get(draft, "title")), CastString(Get(draft, "description")),
           CastString(Get(draft, "due_date")), CastString(Get(draft, "assigned_to")),
           CastString(Get(draft, "priority")), CastBoolean(Get(draft, "canSchedule")))
    case (Cast(title), Cast(description), Cast(dueDate), Cast(assignedTo), Cast(priority), Cast(canSchedule)) =>
      Cast(Task(title, description, dueDate, assignedTo, priority, canSchedule, Some(transcriptionId), None))
    case _ => CastError
  }

  /** A draft that is not an object (including `null`) contributes no fields:
      it is saved as a task with every field unset except the transcription. */
  lemma NonObjectDraftIsBlank(draft: Json, transcriptionId: Id)
    requires !draft.JObj?
    ensures TaskFromDraft(draft, transcriptionId) == Cast(Task(None, None, None, None, None, None, Some(transcriptionId), None))
  {
  }

  // ---------------------------------------------------------------------------
  // The store

  /** The database: one map per collection and the next unused id. */
  datatype Store = Store(
    transcriptions: map<Id, Transcription>,
    tasks: map<Id, Task>,
    events: map<Id, Event>,
    next: Id)

  /** Every id in use lies below `next`, so `next` is fresh. */
  ghost predicate Valid(st: Store) {
    && (forall k :: k in st.transcriptions ==> k < st.next)
    && (forall k :: k in st.tasks ==> k < st.next)
    && (forall k :: k in st.events ==> k < st.next)
  }

  /** The links between tasks and events agree in both directions: every event
      belongs to a stored task that names it, and every task's `eventId` names a
      stored event of that task. */
  ghost predicate Linked(st: Store) {
    && (forall e :: e in st.events ==>
          st.events[e].taskId in st.tasks && st.tasks[st.events[e].taskId].eventId == Some(e))
    && (forall t :: t in st.tasks && st.tasks[t].eventId.Some? ==>
          st.tasks[t].eventId.value in st.events && st.events[st.tasks[t].eventId.value].taskId == t)
  }

  ghost predicate Consistent(st: Store) {
    Valid(st) && Linked(st)
  }

  /** In a consistent store a task has at most one event. */
  lemma AtMostOneEventPerTask(st: Store, e1: Id, e2: Id)
    requires Linked(st)
    requires e1 in st.events && e2 in st.events && st.events[e1].taskId == st.events[e2].taskId
    ensures e1 == e2
  {
  }

  /** A document together with its id, as responses list them. */
  datatype Doc<T> = Doc(id: Id, record: T)
}

=== FILE: routes.dfy ===
/**
 The transcription router's handlers that touch tasks and events, as pure
 transitions over the in-memory store: `PUT /transcription/:id`,
 `POST /extract-tasks/:id` and `GET /events/:id`.

 The per-draft work that the router runs under `Promise.all` is modelled as a
 left-to-right pass over the drafts, which allocates each draft's task id and
 event id together. The running system interleaves the drafts (every task may
 be created before any event), so the model's final store matches an
 interleaved run only up to which fresh id each record receives.
 */
module Routes {
  import opened Wrappers
  import opened JsonValues
  import opened ModelCall
  import opened Models
  import opened EventService
  import TaskExtractor

  datatype Body =
    | ErrorBody(error: string)
    | TranscriptionBody(transcription: Doc<Transcription>)
    | TasksBody(tasks: seq<Doc<Task>>)
    | EventsBody(events: seq<Doc<Event>>)

  datatype Response = Response(status: nat, body: Body)

  // ---------------------------------------------------------------------------
  // PUT /transcription/:id

  const UpdateError: Response := Response(500, ErrorBody("Error updating transcription"))

  /** Replaces the transcript text of an existing transcription and answers
      with the updated record; an unknown id is a 404 and changes nothing.
      `sent` is the body's `transcript` value, `None` when the key is absent:
      the update then changes nothing. A value the String cast rejects fails
      the update before the lookup: 500, nothing changed. */
  function UpdateTranscript(st: Store, id: Id, sent: Option<Json>): (r: (Store, Response))
    ensures sent.Some? && CastString(sent).CastError? ==> r == (st, UpdateError)
    ensures (sent.None? || CastString(sent).Cast?) && id !in st.transcriptions ==>
      r == (st, Response(404, ErrorBody("Not found")))
    ensures (sent.None? || CastString(sent).Cast?) && id in st.transcriptions ==>
      && r.1.status == 200
      && r.0.transcriptions.Keys == st.transcriptions.Keys
      && (sent.None? ==> r.0.transcriptions[id] == st.transcriptions[id])
      && (sent.Some? ==> r.0.transcriptions[id].transcript == CastString(sent).value)
      && r.0.transcriptions[id].filePath == st.transcriptions[id].filePath
      && r.0.transcriptions[id].summary == st.transcriptions[id].summary
      && (forall k :: k in st.transcriptions && k != id ==> r.0.transcriptions[k] == st.transcriptions[k])
      && r.1.body == TranscriptionBody(Doc(id, r.0.transcriptions[id]))
    ensures r.0.tasks == st.tasks && r.0.events == st.events && r.0.next == st.next
  {
    match (if sent.None? then Cast(None) else CastString(sent))
    case CastError => (st, UpdateError)
    case Cast(text) =>
      if id !in st.transcriptions then (st, Response(404, ErrorBody("Not found")))
      else
        var updated := if sent.None? then st.transcriptions[id] else st.transcriptions[id].(transcript := text);
        (st.(transcriptions := st.transcriptions[id := updated]), Response(200, TranscriptionBody(Doc(id, updated))))
  }

  lemma UpdateTranscriptConsistent(st: Store, id: Id, sent: Option<Json>)
    requires Consistent(st)
    ensures Consistent(UpdateTranscript(st, id, sent).0)
  {
  }

  // ---------------------------------------------------------------------------
  // POST /extract-tasks/:id

  /** What one draft's work depends on besides the draft: the clock readings
      `createLocalEvent` takes and whether its `event.save()` succeeds. */
  datatype DraftEnv = DraftEnv(clock: Clock, eventSaved: bool)

  /** What became of one draft. `Created(doc, threw)`: the task was saved as
      `doc`; `threw` is set when reading `canSchedule` afterwards raised (the
      draft was `null`). `Rejected`: the document layer refused the draft. */
  datatype DraftRun = Created(doc: Doc<Task>, threw: bool) | Rejected

  /** The route's scheduling gate: the raw draft's `canSchedule` is truthy. It
      opens only for an object draft whose `canSchedule` is present and not
      `null`, and by JavaScript truthiness any array or object opens it, even
      an empty one. */
  predicate Schedulable(draft: Json): (b: bool)
    ensures b ==> draft.JObj? && "canSchedule" in draft.fields && !draft.fields["canSchedule"].JNull?
    ensures (draft.JObj? && "canSchedule" in draft.fields
      && (draft.fields["canSchedule"].JArr? || draft.fields["canSchedule"].JObj?)) ==> b
  {
    Truthy(Get(draft, "canSchedule"))
  }

  /** The run agrees with the draft: rejected exactly when a field fails to
      cast; otherwise the saved task is the cast draft, and it carries an event
      exactly when the gate is open and the event was saved. */
  ghost predicate RunAgrees(draft: Json, transcriptionId: Id, env: DraftEnv, run: DraftRun) {
    match TaskFromDraft(draft, transcriptionId)
    case CastError => run.Rejected?
    case Cast(t) =>
      && run.Created?
      && run.threw == draft.JNull?
      && run.doc.record == t.(eventId := run.doc.record.eventId)
      && (run.doc.record.eventId.Some? <==> Schedulable(draft) && env.eventSaved)
  }

  /** The run's task, and its event if any, are in the store as reported. */
  ghost predicate Recorded(st: Store, run: DraftRun, env: DraftEnv) {
    run.Created? ==>
      && run.doc.id in st.tasks && st.tasks[run.doc.id] == run.doc.record
      && (run.doc.record.eventId.Some? ==>
            && run.doc.record.eventId.value in st.events
            && st.events[run.doc.record.eventId.value]
               == DraftEvent(run.doc.id, run.doc.record, DueValueOf(run.doc.record), env.clock))
  }

  /** The ids the run allocated lie in `[lo, hi)`. */
  ghost predicate IdsWithin(run: DraftRun, lo: Id, hi: Id) {
    run.Created? ==>
      && lo <= run.doc.id < hi
      && (run.doc.record.eventId.Some? ==> lo <= run.doc.record.eventId.value < hi)
  }

  /** `st'` extends `st`: transcriptions untouched, entries under `st.next`
      unchanged, and every new key freshly allocated. */
  ghost predicate Keeps(st: Store, st': Store) {
    && st'.transcriptions == st.transcriptions
    && st.next <= st'.next
    && (forall k :: k in st.tasks && k < st.next ==> k in st'.tasks && st'.tasks[k] == st.tasks[k])
    && (forall k :: k in st.events && k < st.next ==> k in st'.events && st'.events[k] == st.events[k])
    && (forall k :: k in st'.tasks && k !in st.tasks ==> st.next <= k < st'.next)
    && (forall k :: k in st'.events && k !in st.events ==> st.next <= k < st'.next)
  }

  /** The task id a run adds: its own, if it created a task. */
  function TaskIdsOf(run: DraftRun): set<Id> {
    if run.Created? then {run.doc.id} else {}
  }

  /** The event id a run adds: the one recorded on its task, if any. */
  function EventIdsOf(run: DraftRun): set<Id> {
    if run.Created? && run.doc.record.eventId.Some? then {run.doc.record.eventId.value} else {}
  }

  lemma KeepsTransitive(a: Store, b: Store, c: Store)
    requires Keeps(a, b) && Keeps(b, c)
    ensures Keeps(a, c)
  {
  }

  /** The work of one draft: `Task.create`, then, if the draft's
      `canSchedule` is truthy, `createLocalEvent` and, when it returns an
      event, recording the event's id on the task. */
  function SaveDraft(st: Store, transcriptionId: Id, draft: Json, env: DraftEnv): (r: (Store, DraftRun))
    ensures Keeps(st, r.0)
    ensures RunAgrees(draft, transcriptionId, env, r.1)
    ensures Recorded(r.0, r.1, env)
    ensures IdsWithin(r.1, st.next, r.0.next)
    ensures r.1.Rejected? ==> r.0 == st
    ensures r.0.tasks.Keys == st.tasks.Keys + TaskIdsOf(r.1)
    ensures r.0.events.Keys == st.events.Keys + EventIdsOf(r.1)
  {
    match TaskFromDraft(draft, transcriptionId)
    case CastError => (st, Rejected)
    case Cast(task) =>
      var taskId := st.next;
      var st1 := st.(tasks := st.tasks[taskId := task], next := taskId + 1);
      if draft.JNull? then (st1, Created(Doc(taskId, task), true))
      else if !Schedulable(draft) then (st1, Created(Doc(taskId, task), false))
      else
        var (st2, eventId) := CreateLocalEvent(st1, taskId, task, env.clock, env.eventSaved);
        if eventId.Some? then
          var linked := task.(eventId := eventId);
          (st2.(tasks := st2.tasks[taskId := linked]), Created(Doc(taskId, linked), false))
        else (st2, Created(Doc(taskId, task), false))
  }

  /** Storing a fresh task without an event keeps the store consistent. */
  lemma AddTaskConsistent(st: Store, task: Task)
    requires Consistent(st) && task.eventId.None?
    ensures Consistent(st.(tasks := st.tasks[st.next := task], next := st.next + 1))
  {
  }

  /** Creating a task's event and recording its id on the task keeps the store
      consistent. */
  lemma LinkEventConsistent(st: Store, taskId: Id, task: Task, clock: Clock)
    requires Consistent(st) && taskId in st.tasks && st.tasks[taskId] == task && task.eventId.None?
    ensures var st2 := CreateLocalEvent(st, taskId, task, clock, true).0;
      Consistent(st2.(tasks := st2.tasks[taskId := task.(eventId := Some(st.next))]))
  {
    var st2 := CreateLocalEvent(st, taskId, task, clock, true).0;
    var st3 := st2.(tasks := st2.tasks[taskId := task.(eventId := Some(st.next))]);
    assert st3.events[st.next].taskId == taskId;
    assert Valid(st3);
  }

  /** The store after a draft whose event was created and linked. */
  lemma SaveDraftLinks(st: Store, transcriptionId: Id, draft: Json, env: DraftEnv, task: Task)
    requires TaskFromDraft(draft, transcriptionId) == Cast(task)
    requires !draft.JNull? && Schedulable(draft) && env.eventSaved
    ensures var st1 := st.(tasks := st.tasks[st.next := task], next := st.next + 1);
      var st2 := CreateLocalEvent(st1, st.next, task, env.clock, true).0;
      SaveDraft(st, transcriptionId, draft, env).0
        == st2.(tasks := st2.tasks[st.next := task.(eventId := Some(st1.next))])
  {
  }

  /** The store after a draft that got no event. */
  lemma SaveDraftUnlinked(st: Store, transcriptionId: Id, draft: Json, env: DraftEnv, task: Task)
    requires TaskFromDraft(draft, transcriptionId) == Cast(task)
    requires draft.JNull? || !Schedulable(draft) || !env.eventSaved
    ensures SaveDraft(st, transcriptionId, draft, env).0
         == st.(tasks := st.tasks[st.next := task], next := st.next + 1)
  {
  }

  lemma SaveDraftConsistent(st: Store, transcriptionId: Id, draft: Json, env: DraftEnv)
    requires Consistent(st)
    ensures Consistent(SaveDraft(st, transcriptionId, draft, env).0)
  {
    match TaskFromDraft(draft, transcriptionId)
    case CastError =>
    case Cast(task) =>
      var st1 := st.(tasks := st.tasks[st.next := task], next := st.next + 1);
      AddTaskConsistent(st, task);
      if !draft.JNull? && Schedulable(draft) && env.eventSaved {
        LinkEventConsistent(st1, st.next, task, env.clock);
        SaveDraftLinks(st, transcriptionId, draft, env, task);
      } else {
        SaveDraftUnlinked(st, transcriptionId, draft, env, task);
      }
  }

  /** The drafts' work, in draft order. `env(i)` is what the `i`-th draft's
      event creation sees. */
  function SaveDrafts(st: Store, transcriptionId: Id, drafts: seq<Json>, env: nat -> DraftEnv): (r: (Store, seq<DraftRun>))
    ensures |r.1| == |drafts|
    ensures Keeps(st, r.0)
    decreases |drafts|
  {
    if drafts == [] then (st, [])
    else
      var n := |drafts| - 1;
      var (st1, runs) := SaveDrafts(st, transcriptionId, drafts[..n], env);
      var (st2, run) := SaveDraft(st1, transcriptionId, drafts[n], env(n));
      KeepsTransitive(st, st1, st2);
      (st2, runs + [run])
  }

  /** The pass over a non-empty list is the pass over all but the last draft,
      then the last draft's work. */
  lemma SaveDraftsLast(st: Store, transcriptionId: Id, drafts: seq<Json>, env: nat -> DraftEnv)
    requires drafts != []
    ensures var n := |drafts| - 1;
      var r1 := SaveDrafts(st, transcriptionId, drafts[..n], env);
      var r2 := SaveDraft(r1.0, transcriptionId, drafts[n], env(n));
      SaveDrafts(st, transcriptionId, drafts, env) == (r2.0, r1.1 + [r2.1])
  {
  }

  /** Every run agrees with its own draft. */
  lemma {:induction false} SaveDraftsAgree(st: Store, transcriptionId: Id, drafts: seq<Json>, env: nat -> DraftEnv)
    ensures var runs := SaveDrafts(st, transcriptionId, drafts, env).1;
      forall i :: 0 <= i < |drafts| ==> RunAgrees(drafts[i], transcriptionId, env(i), runs[i])
    decreases |drafts|
  {
    if drafts != [] {
      var n := |drafts| - 1;
      SaveDraftsAgree(st, transcriptionId, drafts[..n], env);
      var (st1, runs) := SaveDrafts(st, transcriptionId, drafts[..n], env);
      var (st2, run) := SaveDraft(st1, transcriptionId, drafts[n], env(n));
      SaveDraftsLast(st, transcriptionId, drafts, env);
      AgreeSnoc(drafts, transcriptionId, env, runs, run);
    }
  }

  lemma AgreeSnoc(drafts: seq<Json>, transcriptionId: Id, env: nat -> DraftEnv, runs: seq<DraftRun>, run: DraftRun)
    requires |drafts| == |runs| + 1
    requires forall i :: 0 <= i < |runs| ==> RunAgrees(drafts[..|runs|][i], transcriptionId, env(i), runs[i])
    requires RunAgrees(drafts[|runs|], transcriptionId, env(|runs|), run)
    ensures forall i :: 0 <= i < |drafts| ==> RunAgrees(drafts[i], transcriptionId, env(i), (runs + [run])[i])
  {
    forall i | 0 <= i < |drafts|
      ensures RunAgrees(drafts[i], transcriptionId, env(i), (runs + [run])[i])
    {
      if i < |runs| {
        assert drafts[..|runs|][i] == drafts[i] && (runs + [run])[i] == runs[i];
      } else {
        assert (runs + [run])[i] == run;
      }
    }
  }

  /** A recorded run stays recorded when the store only grows above its ids. */
  lemma RecordedKept(st: Store, st': Store, run: DraftRun, env: DraftEnv)
    requires Recorded(st, run, env) && IdsWithin(run, 0, st.next) && Keeps(st, st')
    ensures Recorded(st', run, env)
  {
  }

  /** Every run's task and event are in the final store, under ids allocated
      during the pass. */
  lemma {:induction false} SaveDraftsRecorded(st: Store, transcriptionId: Id, drafts: seq<Json>, env: nat -> DraftEnv)
    ensures var r := SaveDrafts(st, transcriptionId, drafts, env);
      forall i :: 0 <= i < |drafts| ==> Recorded(r.0, r.1[i], env(i)) && IdsWithin(r.1[i], st.next, r.0.next)
    decreases |drafts|
  {
    if drafts != [] {
      var n := |drafts| - 1;
      SaveDraftsRecorded(st, transcriptionId, drafts[..n], env);
      var r1 := SaveDrafts(st, transcriptionId, drafts[..n], env);
      var r2 := SaveDraft(r1.0, transcriptionId, drafts[n], env(n));
      var runs := r1.1 + [r2.1];
      SaveDraftsLast(st, transcriptionId, drafts, env);
      forall i | 0 <= i < |drafts|
        ensures Recorded(r2.0, runs[i], env(i)) && IdsWithin(runs[i], st.next, r2.0.next)
      {
        if i < n {
          assert runs[i] == r1.1[i];
          RecordedKept(r1.0, r2.0, r1.1[i], env(i));
        } else {
          assert runs[i] == r2.1;
        }
      }
    }
  }

  /** The task ids the runs added. */
  ghost function CreatedIds(runs: seq<DraftRun>): set<Id> {
    set k | 0 <= k < |runs| && runs[k].Created? :: runs[k].doc.id
  }

  /** The event ids the runs recorded on their tasks. */
  ghost function CreatedEventIds(runs: seq<DraftRun>): set<Id> {
    set k | 0 <= k < |runs| && runs[k].Created? && runs[k].doc.record.eventId.Some? :: runs[k].doc.record.eventId.value
  }

  /** One more run adds its own task id and event id to those of the runs
      before it, so a store that held the earlier runs' additions and then
      gained the last run's holds the additions of all of them. */
  lemma CreatedIdsSnoc(st: Store, st1: Store, runs: seq<DraftRun>, st2: Store, run: DraftRun)
    requires st1.tasks.Keys == st.tasks.Keys + CreatedIds(runs)
    requires st1.events.Keys == st.events.Keys + CreatedEventIds(runs)
    requires st2.tasks.Keys == st1.tasks.Keys + TaskIdsOf(run)
    requires st2.events.Keys == st1.events.Keys + EventIdsOf(run)
    ensures st2.tasks.Keys == st.tasks.Keys + CreatedIds(runs + [run])
    ensures st2.events.Keys == st.events.Keys + CreatedEventIds(runs + [run])
  {
    CreatedIdsAppend(runs, run);
  }

  lemma CreatedIdsAppend(runs: seq<DraftRun>, run: DraftRun)
    ensures CreatedIds(runs + [run]) == CreatedIds(runs) + TaskIdsOf(run)
    ensures CreatedEventIds(runs + [run]) == CreatedEventIds(runs) + EventIdsOf(run)
  {
    var rs := runs + [run];
    assert forall k :: 0 <= k < |runs| ==> rs[k] == runs[k];
    assert rs[|runs|] == run;
  }

  /** The pass adds exactly the runs' tasks and events to the store: nothing
      else is created. */
  lemma {:induction false} SaveDraftsAddsOnly(st: Store, transcriptionId: Id, drafts: seq<Json>, env: nat -> DraftEnv)
    ensures var r := SaveDrafts(st, transcriptionId, drafts, env);
      && r.0.tasks.Keys == st.tasks.Keys + CreatedIds(r.1)
      && r.0.events.Keys == st.events.Keys + CreatedEventIds(r.1)
    decreases |drafts|
  {
    if drafts != [] {
      var n := |drafts| - 1;
      SaveDraftsAddsOnly(st, transcriptionId, drafts[..n], env);
      var r1 := SaveDrafts(st, transcriptionId, drafts[..n], env);
      var r2 := SaveDraft(r1.0, transcriptionId, drafts[n], env(n));
      SaveDraftsLast(st, transcriptionId, drafts, env);
      CreatedIdsSnoc(st, r1.0, r1.1, r2.0, r2.1);
    }
  }

  /** The created tasks' ids increase along `runs`. */
  ghost predicate IdsIncrease(runs: seq<DraftRun>) {
    forall i, j :: 0 <= i < j < |runs| && runs[i].Created? && runs[j].Created? ==>
      runs[i].doc.id < runs[j].doc.id
  }

  /** The tasks' ids increase in draft order. */
  lemma {:induction false} SaveDraftsOrdered(st: Store, transcriptionId: Id, drafts: seq<Json>, env: nat -> DraftEnv)
    ensures IdsIncrease(SaveDrafts(st, transcriptionId, drafts, env).1)
    decreases |drafts|
  {
    if drafts != [] {
      var n := |drafts| - 1;
      SaveDraftsOrdered(st, transcriptionId, drafts[..n], env);
      SaveDraftsRecorded(st, transcriptionId, drafts[..n], env);
      var r1 := SaveDrafts(st, transcriptionId, drafts[..n], env);
      var r2 := SaveDraft(r1.0, transcriptionId, drafts[n], env(n));
      SaveDraftsLast(st, transcriptionId, drafts, env);
    }
  }

  lemma {:induction false} SaveDraftsConsistent(st: Store, transcriptionId: Id, drafts: seq<Json>, env: nat -> DraftEnv)
    requires Consistent(st)
    ensures Consistent(SaveDrafts(st, transcriptionId, drafts, env).0)
    decreases |drafts|
  {
    if drafts != [] {
      var n := |drafts| - 1;
      SaveDraftsConsistent(st, transcriptionId, drafts[..n], env);
      var st1 := SaveDrafts(st, transcriptionId, drafts[..n], env).0;
      SaveDraftConsistent(st1, transcriptionId, drafts[n], env(n));
    }
  }

  /** Every draft produced a task and none raised afterwards. */
  predicate AllSaved(runs: seq<DraftRun>) {
    forall i :: 0 <= i < |runs| ==> runs[i].Created? && !runs[i].threw
  }

  /** The saved tasks, in draft order. */
  function SavedTasks(runs: seq<DraftRun>): (docs: seq<Doc<Task>>)
    requires AllSaved(runs)
    ensures |docs| == |runs|
    ensures forall i :: 0 <= i < |runs| ==> docs[i] == runs[i].doc
  {
    if runs == [] then [] else [runs[0].doc] + SavedTasks(runs[1..])
  }

  const ExtractError: Response := Response(500, ErrorBody("Error extracting tasks"))

  /** `POST /extract-tasks/:id`. `reply` is the model's answer to the extraction
      prompt, `parse` is `JSON.parse`, `env(i)` the inputs of the `i`-th draft's
      event creation. A missing transcription is a 404 with no side effects; a
      transcript the extractor refuses is a 500 with no side effects; otherwise
      every draft is worked through, and the answer is 200 with the saved
      tasks, or 500 if any draft failed (the other drafts' work stays done). */
  function ExtractTasks(st: Store, id: Id, reply: Option<string>, parse: Parser, env: nat -> DraftEnv): (r: (Store, Response))
    ensures id !in st.transcriptions ==> r == (st, Response(404, ErrorBody("Transcription not found")))
    ensures r.1.status == 200 || r.1 == ExtractError || r.1.status == 404
    ensures r.1.status == 200 ==>
      && id in st.transcriptions && !Refuses(st.transcriptions[id].transcript)
      && var pass := SaveDrafts(st, id, TaskExtractor.ReplyTasks(reply, parse), env);
      && AllSaved(pass.1)
      && r == (pass.0, Response(200, TasksBody(SavedTasks(pass.1))))
    ensures Keeps(st, r.0)
  {
    if id !in st.transcriptions then (st, Response(404, ErrorBody("Transcription not found")))
    else if Refuses(st.transcriptions[id].transcript) then (st, ExtractError)
    else
      var (st', runs) := SaveDrafts(st, id, TaskExtractor.ReplyTasks(reply, parse), env);
      if AllSaved(runs) then (st', Response(200, TasksBody(SavedTasks(runs))))
      else (st', ExtractError)
  }

  /** The drafts the extractor hands to the route. */
  function DraftsFor(st: Store, id: Id, reply: Option<string>, parse: Parser): seq<Json>
    requires id in st.transcriptions
  {
    if Refuses(st.transcriptions[id].transcript) then []
    else TaskExtractor.ReplyTasks(reply, parse)
  }

  /** The route sees only the outcome of `extractTasks`: when it raises the
      answer is 500 with nothing stored, and otherwise the drafts worked
      through are exactly the ones it returned. */
  lemma ExtractTasksCallsExtractor(st: Store, id: Id, reply: Option<string>, parse: Parser, env: nat -> DraftEnv)
    requires id in st.transcriptions
    ensures var call := TaskExtractor.Extract(st.transcriptions[id].transcript, reply, parse);
      && (call.Raised? ==> ExtractTasks(st, id, reply, parse, env) == (st, ExtractError))
      && (call.Returned? ==> DraftsFor(st, id, reply, parse) == call.value)
  {
  }

  /** A 200 answer comes from a pass in which every draft saved; it lists the
      saved tasks and leaves the store the pass produced. */
  lemma ExtractTasksSaved(st: Store, id: Id, reply: Option<string>, parse: Parser, env: nat -> DraftEnv)
    requires id in st.transcriptions
    requires ExtractTasks(st, id, reply, parse, env).1.status == 200
    ensures var r := SaveDrafts(st, id, DraftsFor(st, id, reply, parse), env);
      && AllSaved(r.1)
      && ExtractTasks(st, id, reply, parse, env) == (r.0, Response(200, TasksBody(SavedTasks(r.1))))
  {
    ExtractTasksShape(st, id, reply, parse, env);
  }

  /** Once the transcript is accepted, the answer is the saved list when every
      draft saved, and 500 otherwise. */
  lemma ExtractTasksShape(st: Store, id: Id, reply: Option<string>, parse: Parser, env: nat -> DraftEnv)
    requires id in st.transcriptions && !Refuses(st.transcriptions[id].transcript)
    ensures DraftsFor(st, id, reply, parse) == TaskExtractor.ReplyTasks(reply, parse)
    ensures var r := SaveDrafts(st, id, TaskExtractor.ReplyTasks(reply, parse), env);
      ExtractTasks(st, id, reply, parse, env)
        == if AllSaved(r.1) then (r.0, Response(200, TasksBody(SavedTasks(r.1)))) else (r.0, ExtractError)
  {
  }

  /** A falsy stored transcript makes the extractor raise before any model
      call; the route answers 500 and stores nothing. */
  lemma ExtractRejectsEmptyTranscript(st: Store, id: Id, reply: Option<string>, parse: Parser, env: nat -> DraftEnv)
    requires id in st.transcriptions
    requires Refuses(st.transcriptions[id].transcript)
    ensures ExtractTasks(st, id, reply, parse, env) == (st, ExtractError)
  {
  }

  /** When the model call fails, or its reply yields no drafts, the answer is
      200 with an empty task list and the store is unchanged. */
  lemma ExtractNothingFound(st: Store, id: Id, reply: Option<string>, parse: Parser, env: nat -> DraftEnv)
    requires id in st.transcriptions
    requires !Refuses(st.transcriptions[id].transcript)
    requires DraftsFor(st, id, reply, parse) == []
    ensures ExtractTasks(st, id, reply, parse, env) == (st, Response(200, TasksBody([])))
  {
    assert AllSaved([]);
  }

  /** On success the answer lists one task per draft, in draft order: the
      draft's fields as cast, linked to the route's transcription (whatever the
      draft said), each stored under a fresh id, and carrying an event id
      exactly when the draft's own `canSchedule` was truthy and the event was
      saved, in which case that event is stored for that task. Nothing else is
      created: the store gains exactly the listed tasks and their events. */
  lemma ExtractOneTaskPerDraft(st: Store, id: Id, reply: Option<string>, parse: Parser, env: nat -> DraftEnv)
    requires id in st.transcriptions
    requires ExtractTasks(st, id, reply, parse, env).1.status == 200
    ensures var (st', resp) := ExtractTasks(st, id, reply, parse, env);
      resp.body.TasksBody? && ListsDrafts(st, id, DraftsFor(st, id, reply, parse), env, st', resp.body.tasks)
  {
    var drafts := DraftsFor(st, id, reply, parse);
    ExtractTasksSaved(st, id, reply, parse, env);
    SavedTasksListDrafts(st, id, drafts, env);
  }

  /** `tasks` lists one task per draft, in draft order: the draft's fields as
      cast, linked to the transcription `id`, stored in `st'` under an id fresh
      for `st`, and carrying an event id exactly when the draft's own
      `canSchedule` is truthy and the event was saved, in which case that event
      is stored for that task. `st'` gains exactly those tasks and events. */
  ghost predicate ListsDrafts(st: Store, id: Id, drafts: seq<Json>, env: nat -> DraftEnv, st': Store, tasks: seq<Doc<Task>>) {
    && |tasks| == |drafts|
    && (forall i :: 0 <= i < |drafts| ==>
        var doc := tasks[i];
        && TaskFromDraft(drafts[i], id) == Cast(doc.record.(eventId := None))
        && doc.record.transcriptionId == Some(id)
        && st.next <= doc.id < st'.next
        && doc.id in st'.tasks && st'.tasks[doc.id] == doc.record
        && (doc.record.eventId.Some? <==> Schedulable(drafts[i]) && env(i).eventSaved)
        && (doc.record.eventId.Some? ==>
              doc.record.eventId.value in st'.events
              && st'.events[doc.record.eventId.value].taskId == doc.id
              && st'.events[doc.record.eventId.value]
                 == DraftEvent(doc.id, doc.record, DueValueOf(doc.record), env(i).clock)))
    && st'.tasks.Keys == st.tasks.Keys + (set d | d in tasks :: d.id)
    && st'.events.Keys == st.events.Keys + (set d | d in tasks && d.record.eventId.Some? :: d.record.eventId.value)
  }

  /** A pass in which every draft saved lists the drafts and stores exactly
      their tasks and events. */
  lemma SavedTasksListDrafts(st: Store, id: Id, drafts: seq<Json>, env: nat -> DraftEnv)
    requires AllSaved(SaveDrafts(st, id, drafts, env).1)
    ensures var r := SaveDrafts(st, id, drafts, env);
      ListsDrafts(st, id, drafts, env, r.0, SavedTasks(r.1))
  {
    SaveDraftsAgree(st, id, drafts, env);
    SaveDraftsRecorded(st, id, drafts, env);
    SaveDraftsAddsOnly(st, id, drafts, env);
    SavedTasksIds(SaveDrafts(st, id, drafts, env).1);
  }

  /** On success the listed tasks' ids increase in draft order. */
  lemma ExtractIdsIncrease(st: Store, id: Id, reply: Option<string>, parse: Parser, env: nat -> DraftEnv)
    requires id in st.transcriptions
    requires ExtractTasks(st, id, reply, parse, env).1.status == 200
    ensures var tasks := ExtractTasks(st, id, reply, parse, env).1.body.tasks;
      forall i, j :: 0 <= i < j < |tasks| ==> tasks[i].id < tasks[j].id
  {
    var runs := SaveDrafts(st, id, DraftsFor(st, id, reply, parse), env).1;
    SaveDraftsOrdered(st, id, DraftsFor(st, id, reply, parse), env);
    SavedTasksIncrease(runs);
  }

  /** When every run saved, the ids the runs added are those of the listed tasks. */
  lemma SavedTasksIds(runs: seq<DraftRun>)
    requires AllSaved(runs)
    ensures var tasks := SavedTasks(runs);
      && CreatedIds(runs) == (set d | d in tasks :: d.id)
      && CreatedEventIds(runs) == (set d | d in tasks && d.record.eventId.Some? :: d.record.eventId.value)
  {
    var tasks := SavedTasks(runs);
    forall d | d in tasks ensures d.id in CreatedIds(runs) {
      var k :| 0 <= k < |tasks| && tasks[k] == d;
      assert runs[k].doc == d;
    }
    forall d | d in tasks && d.record.eventId.Some? ensures d.record.eventId.value in CreatedEventIds(runs) {
      var k :| 0 <= k < |tasks| && tasks[k] == d;
      assert runs[k].doc == d;
    }
    forall x | x in CreatedIds(runs) ensures x in (set d | d in tasks :: d.id) {
      var k :| 0 <= k < |runs| && runs[k].Created? && runs[k].doc.id == x;
      assert tasks[k] in tasks;
    }
    forall x | x in CreatedEventIds(runs)
      ensures x in (set d | d in tasks && d.record.eventId.Some? :: d.record.eventId.value)
    {
      var k :| 0 <= k < |runs| && runs[k].Created? && runs[k].doc.record.eventId.Some? && runs[k].doc.record.eventId.value == x;
      assert tasks[k] in tasks;
    }
  }

  lemma SavedTasksIncrease(runs: seq<DraftRun>)
    requires AllSaved(runs) && IdsIncrease(runs)
    ensures var tasks := SavedTasks(runs);
      forall i, j :: 0 <= i < j < |tasks| ==> tasks[i].id < tasks[j].id
  {
  }

  /** A draft whose `canSchedule` is falsy never gets an event, whatever else
      happens to the request: this holds for every draft list the route works
      through. */
  lemma SaveDraftsFalsyFlagNoEvent(st: Store, id: Id, drafts: seq<Json>, env: nat -> DraftEnv, i: nat)
    requires i < |drafts| && !Schedulable(drafts[i])
    ensures var runs := SaveDrafts(st, id, drafts, env).1;
      runs[i].Created? ==> runs[i].doc.record.eventId.None?
  {
    SaveDraftsAgree(st, id, drafts, env);
  }

  /** Extraction keeps the store consistent: the links between tasks and
      events agree both ways, so no task ends up with two events. */
  lemma ExtractTasksConsistent(st: Store, id: Id, reply: Option<string>, parse: Parser, env: nat -> DraftEnv)
    requires Consistent(st)
    ensures Consistent(ExtractTasks(st, id, reply, parse, env).0)
  {
    if id in st.transcriptions {
      SaveDraftsConsistent(st, id, DraftsFor(st, id, reply, parse), env);
    }
  }

  /** The `canSchedule` gate reads the raw draft, not the stored Boolean: the
      draft value "false" is truthy, so an event is created although the task
      is stored with `canSchedule == false`. */
  lemma StringFalseIsScheduled(st: Store, id: Id, clock: Clock)
    ensures var draft := JObj(map["canSchedule" := JStr("false")]);
      var (st', run) := SaveDraft(st, id, draft, DraftEnv(clock, true));
      && run.Created?
      && run.doc.record.canSchedule == Some(false)
      && run.doc.record.eventId == Some(st.next + 1)
  {
    var draft := JObj(map["canSchedule" := JStr("false")]);
    assert Get(draft, "canSchedule") == Some(JStr("false"));
    assert "false" != "true" && "false" != "1" && "false" != "yes";
  }

  // ---------------------------------------------------------------------------
  // GET /events/:id

  /** `m` is the least element of `s`. */
  predicate IsLeast(m: Id, s: set<Id>) {
    m in s && forall j :: j in s ==> m <= j
  }

  /** Every non-empty set of ids has a least element. */
  lemma LeastExists(s: set<Id>)
    requires s != {}
    ensures exists m :: IsLeast(m, s)
  {
    var x :| x in s;
    var rest := s - {x};
    if rest == {} {
      forall j | j in s ensures x <= j {
        assert j == x || j in rest;
      }
      assert IsLeast(x, s);
    } else {
      LeastExists(rest);
      var m :| IsLeast(m, rest);
      var least := if x < m then x else m;
      forall j | j in s ensures least <= j {
        if j != x { assert j in rest; }
      }
      assert IsLeast(least, s);
    }
  }

  /** `found` lists, in increasing id order, stored events of transcription `id`
      and only those. */
  ghost predicate ListsEventsOf(st: Store, id: Id, found: seq<Doc<Event>>) {
    && (forall k :: 0 <= k < |found| ==>
          found[k].id in st.events && st.events[found[k].id] == found[k].record
          && found[k].record.transcriptionId == Some(id))
    && (forall k, l :: 0 <= k < l < |found| ==> found[k].id < found[l].id)
  }

  lemma ListsEventsExtend(st: Store, id: Id, found: seq<Doc<Event>>, e: Id)
    requires ListsEventsOf(st, id, found)
    requires e in st.events && st.events[e].transcriptionId == Some(id)
    requires ListedBefore(found, {e})
    ensures ListsEventsOf(st, id, found + [Doc(e, st.events[e])])
  {
  }

  /** Every event of transcription `id` outside `pending` is in `found`. */
  ghost predicate CoversEventsOf(st: Store, id: Id, pending: set<Id>, found: seq<Doc<Event>>) {
    forall e :: e in st.events && e !in pending && st.events[e].transcriptionId == Some(id) ==>
      Doc(e, st.events[e]) in found
  }

  lemma CoversStep(st: Store, id: Id, pending: set<Id>, found: seq<Doc<Event>>, e: Id, found': seq<Doc<Event>>)
    requires CoversEventsOf(st, id, pending, found)
    requires e in st.events
    requires found' == (if st.events[e].transcriptionId == Some(id) then found + [Doc(e, st.events[e])] else found)
    ensures CoversEventsOf(st, id, pending - {e}, found')
  {
    forall x | x in st.events && x !in pending - {e} && st.events[x].transcriptionId == Some(id)
      ensures Doc(x, st.events[x]) in found'
    {
      if x != e {
        assert Doc(x, st.events[x]) in found;
      }
    }
  }

  /** The least element of a non-empty set of ids. */
  method Least(s: set<Id>) returns (m: Id)
    requires s != {}
    ensures m in s && forall j :: j in s ==> m <= j
  {
    LeastExists(s);
    m :| IsLeast(m, s);
  }

  /** Everything listed precedes everything still pending. */
  ghost predicate ListedBefore(found: seq<Doc<Event>>, pending: set<Id>) {
    forall k, j :: 0 <= k < |found| && j in pending ==> found[k].id < j
  }

  /** Moving the least pending id into the listing keeps the listing first. */
  lemma ListedBeforeStep(found: seq<Doc<Event>>, pending: set<Id>, e: Id, found': seq<Doc<Event>>)
    requires ListedBefore(found, pending)
    requires e in pending && forall j :: j in pending ==> e <= j
    requires found' == found || (|found'| == |found| + 1 && found'[..|found|] == found && found'[|found|].id == e)
    ensures ListedBefore(found', pending - {e})
  {
    forall k, j | 0 <= k < |found'| && j in pending - {e} ensures found'[k].id < j {
      if k < |found| {
        assert found'[k] == found[k];
      }
    }
  }

  /** `Event.find({ transcriptionId: id })`: the stored events of transcription
      `id`, all of them and nothing else, in increasing id (creation) order. */
  method ListEvents(st: Store, id: Id) returns (resp: Response)
    ensures resp.status == 200 && resp.body.EventsBody?
    ensures ListsEventsOf(st, id, resp.body.events)
    ensures CoversEventsOf(st, id, {}, resp.body.events)
  {
    var remaining := st.events.Keys;
    var found: seq<Doc<Event>> := [];
    while remaining != {}
      invariant remaining <= st.events.Keys
      invariant ListsEventsOf(st, id, found)
      invariant ListedBefore(found, remaining)
      invariant CoversEventsOf(st, id, remaining, found)
      decreases |remaining|
    {
      var e := Least(remaining);
      var before := found;
      if st.events[e].transcriptionId == Some(id) {
        ListsEventsExtend(st, id, found, e);
        found := found + [Doc(e, st.events[e])];
      }
      CoversStep(st, id, remaining, before, e, found);
      ListedBeforeStep(before, remaining, e, found);
      remaining := remaining - {e};
    }
    resp := Response(200, EventsBody(found));
  }
}

=== FILE: scenarios.dfy ===
/**
 Two end-to-end runs of `POST /extract-tasks/:id` with concrete drafts. The
 JSON parser stays abstract: each scenario takes a payload that opens with "{"
 and closes with "}" (such as `{"tasks":[{"title":"Standup", ...}]}`) and
 assumes only what the parser returns for it.
 */
module Scenarios {
  import opened Wrappers
  import opened JsonValues
  import opened Text
  import opened Models
  import opened EventService
  import TaskExtractor
  import opened ModelCall
  import opened Routes

  /** Text that opens with "{" and closes with "}". */
  predicate Braced(p: string) {
    |p| >= 2 && p[0] == '{' && p[|p| - 1] == '}'
  }

  /** `{"tasks":[d]}` as the parser returns it. */
  function OneTask(d: Json): (v: Json)
    ensures TasksField(v) == Some([d])
  {
    JObj(map["tasks" := JArr([d])])
  }

  const SendReport: Json :=
    JObj(map["title" := JStr("Send report"), "due_date" := JStr("Friday"), "canSchedule" := JBool(false)])

  const Standup: Json :=
    JObj(map["title" := JStr("Standup"), "due_date" := JStr("Daily"), "canSchedule" := JBool(true)])

  const FenceOpen: string := "```json\n"
  const FenceClose: string := "\n```"

  lemma FencesHaveNoBraces()
    ensures NoBraces(FenceOpen) && NoBraces(FenceClose)
  {
  }

  /** A bare braced payload yields the drafts of its `tasks` array. */
  lemma BareDrafts(transcript: string, payload: string, parse: Parser, d: Json)
    requires transcript != ""
    requires Braced(payload) && parse(payload) == Some(OneTask(d))
    ensures TaskExtractor.Extract(Some(transcript), Some(payload), parse)
         == Returned([Prompt(TaskExtractor.Instructions, transcript)], [d])
  {
    BracedTextIsItsSpan(payload);
    TaskExtractor.ExtractSuccess(transcript, payload, parse, payload, OneTask(d));
  }

  /** So does the same payload inside a "```json" fence. */
  lemma FencedDrafts(transcript: string, payload: string, parse: Parser, d: Json)
    requires transcript != ""
    requires Braced(payload) && parse(payload) == Some(OneTask(d))
    ensures TaskExtractor.Extract(Some(transcript), Some(FenceOpen + payload + FenceClose), parse)
         == Returned([Prompt(TaskExtractor.Instructions, transcript)], [d])
  {
    BareDrafts(transcript, payload, parse, d);
    FencesHaveNoBraces();
    TaskExtractor.ExtractIgnoresWrapping(transcript, FenceOpen, payload, FenceClose, parse);
  }

  /** One draft, one run. */
  lemma SaveOneDraft(st: Store, id: Id, d: Json, env: nat -> DraftEnv)
    ensures SaveDrafts(st, id, [d], env).0 == SaveDraft(st, id, d, env(0)).0
    ensures SaveDrafts(st, id, [d], env).1 == [SaveDraft(st, id, d, env(0)).1]
  {
    assert [d][..0] == [];
    assert [d][0] == d;
  }

  /** With a single draft the route's answer is that draft's run. */
  lemma OneDraftRoute(st: Store, id: Id, reply: Option<string>, parse: Parser, env: nat -> DraftEnv, d: Json)
    requires id in st.transcriptions && !Refuses(st.transcriptions[id].transcript)
    requires DraftsFor(st, id, reply, parse) == [d]
    ensures var run := SaveDraft(st, id, d, env(0)).1;
      run.Created? && !run.threw ==>
        ExtractTasks(st, id, reply, parse, env) == (SaveDraft(st, id, d, env(0)).0, Response(200, TasksBody([run.doc])))
  {
    ExtractTasksShape(st, id, reply, parse, env);
    SaveOneDraft(st, id, d, env);
    SavedOne(SaveDraft(st, id, d, env(0)).1);
  }

  /** A single run that saved lists its own task. */
  lemma SavedOne(run: DraftRun)
    ensures AllSaved([run]) <==> run.Created? && !run.threw
    ensures AllSaved([run]) ==> SavedTasks([run]) == [run.doc]
  {
  }

  /** `canSchedule: false` closes the gate: the task is saved unlinked and no
      event is made. */
  lemma SendReportRun(st: Store, id: Id, env: DraftEnv)
    ensures var (st1, run) := SaveDraft(st, id, SendReport, env);
      && run.Created? && !run.threw
      && run.doc.record.title == Some("Send report")
      && run.doc.record.transcriptionId == Some(id)
      && run.doc.record.eventId == None
      && st1.tasks == st.tasks[run.doc.id := run.doc.record]
      && st1.events == st.events
  {
    assert Get(SendReport, "canSchedule") == Some(JBool(false));
    assert Get(SendReport, "title") == Some(JStr("Send report"));
    assert Get(SendReport, "due_date") == Some(JStr("Friday"));
    assert Get(SendReport, "description") == None;
    assert Get(SendReport, "assigned_to") == None;
    assert Get(SendReport, "priority") == None;
    assert !Schedulable(SendReport);
  }

  /** `canSchedule: true` with due date "Daily": the task is linked to a daily
      event spanning the two clock readings. */
  lemma StandupRun(st: Store, id: Id, env: DraftEnv)
    requires env.eventSaved
    ensures var (st1, run) := SaveDraft(st, id, Standup, env);
      && run.Created? && !run.threw
      && run.doc.record.eventId.Some?
      && var e := run.doc.record.eventId.value;
      && e in st1.events
      && st1.events[e].recurrence == Some("Daily")
      && st1.events[e].startTime == env.clock.start
      && st1.events[e].endTime == env.clock.later
      && st1.events[e].taskId == run.doc.id
      && st1.tasks.Keys == st.tasks.Keys + {run.doc.id}
      && st1.events.Keys == st.events.Keys + {e}
  {
    assert Get(Standup, "canSchedule") == Some(JBool(true));
    assert Get(Standup, "title") == Some(JStr("Standup"));
    assert Get(Standup, "due_date") == Some(JStr("Daily"));
    assert Get(Standup, "description") == None;
    assert Get(Standup, "assigned_to") == None;
    assert Get(Standup, "priority") == None;
    assert Schedulable(Standup);
    var (st1, run) := SaveDraft(st, id, Standup, env);
    assert run.doc.record.dueDate == Some("Daily");
    assert DueValueOf(run.doc.record) == DueText("Daily");
    assert IsRecurrenceToken(DueText("Daily"));
  }

  /** A reply naming one task with `canSchedule: false`: exactly one task is
      stored, linked to the transcription, and no event is created. */
  lemma UnschedulableTaskHasNoEvent(st: Store, id: Id, payload: string, parse: Parser, env: nat -> DraftEnv)
    requires id in st.transcriptions && !Refuses(st.transcriptions[id].transcript)
    requires Braced(payload) && parse(payload) == Some(OneTask(SendReport))
    ensures var (st', resp) := ExtractTasks(st, id, Some(payload), parse, env);
      && resp.status == 200 && resp.body.TasksBody? && |resp.body.tasks| == 1
      && resp.body.tasks[0].record.title == Some("Send report")
      && resp.body.tasks[0].record.transcriptionId == Some(id)
      && resp.body.tasks[0].record.eventId == None
      && st'.tasks.Keys == st.tasks.Keys + {resp.body.tasks[0].id}
      && st'.events == st.events
  {
    BareDrafts(st.transcriptions[id].transcript.value, payload, parse, SendReport);
    OneDraftRoute(st, id, Some(payload), parse, env, SendReport);
    SendReportRun(st, id, env(0));
  }

  /** A fenced reply naming one daily task: exactly one task and one event are stored,
      the event recurs daily, starts at the first clock reading and ends at the
      second, and the task records the event's id. */
  lemma FencedDailyTaskIsScheduled(st: Store, id: Id, payload: string, parse: Parser, env: nat -> DraftEnv)
    requires id in st.transcriptions && !Refuses(st.transcriptions[id].transcript)
    requires Braced(payload) && parse(payload) == Some(OneTask(Standup))
    requires env(0).eventSaved
    ensures var (st', resp) := ExtractTasks(st, id, Some(FenceOpen + payload + FenceClose), parse, env);
      && resp.status == 200 && resp.body.TasksBody? && |resp.body.tasks| == 1
      && resp.body.tasks[0].record.eventId.Some?
      && var e := resp.body.tasks[0].record.eventId.value;
      && e in st'.events
      && st'.events[e].recurrence == Some("Daily")
      && st'.events[e].startTime == env(0).clock.start
      && st'.events[e].endTime == env(0).clock.later
      && st'.events[e].taskId == resp.body.tasks[0].id
      && st'.tasks.Keys == st.tasks.Keys + {resp.body.tasks[0].id}
      && st'.events.Keys == st.events.Keys + {e}
  {
    FencedDrafts(st.transcriptions[id].transcript.value, payload, parse, Standup);
    OneDraftRoute(st, id, Some(FenceOpen + payload + FenceClose), parse, env, Standup);
    StandupRun(st, id, env(0));
  }
}

=== FILE: scratch_extractor.dfy ===
/**
 The stand-alone variant of `extractTasks` kept beside the server: it has no
 transcript check, strips every "```json" and "```" from the reply, trims it,
 parses the whole remainder, and returns the `tasks` array or the empty list.
 */
module ScratchExtractor {
  import opened Wrappers
  import opened JsonValues
  import opened Text
  import opened ModelCall

  /** The instruction text that precedes the transcript in the prompt. */
  const Instructions: string :=
    "Extract tasks from the transcript and provide due dates, responsible persons, priority, and if they can be scheduled. Return ONLY valid JSON (no explanations, no text before or after):\n"
    + "  {\n"
    + "    \"tasks\": [\n"
    + "      { \"title\": \"Task title\", \"description\": \"Task details\", \"due_date\": \"YYYY-MM-DD\", \"assigned_to\": \"Person name\", \"priority\": \"High/Medium/Low\", \"canSchedule\": true/false }\n"
    + "    ]\n"
    + "  }\n"
    + "  " + TranscriptLabel

  /** The language tag of the fence the reply is expected to use. */
  const Tag: string := "json"

  /** The body of the try block once the reply text is in hand. */
  function TasksFromReply(reply: string, parse: Parser): (r: seq<Json>)
    ensures parse(Clean(reply, Tag)).None? ==> r == []
    ensures r != [] ==>
      parse(Clean(reply, Tag)).Some? && TasksField(parse(Clean(reply, Tag)).value) == Some(r)
  {
    match parse(Clean(reply, Tag))
    case None => []
    case Some(v) => TasksField(v).GetOr([])
  }

  /** `extractTasks(transcript)`: it never throws, and prompts the model for
      every transcript, the empty one included. */
  function Extract(transcript: string, reply: Option<string>, parse: Parser): (r: Call<seq<Json>>)
    ensures r.Returned? && r.prompts == [Prompt(Instructions, transcript)]
    ensures reply.None? ==> r.value == []
  {
    var tasks := match reply
      case None => []
      case Some(text) => TasksFromReply(text, parse);
    Returned([Prompt(Instructions, transcript)], tasks)
  }

  /** The parsed `tasks` array is returned exactly when the cleaned reply parses
      to an object with an array-valued `tasks` field; otherwise the result is
      empty. */
  lemma ExtractValidates(transcript: string, reply: string, parse: Parser)
    ensures var r := Extract(transcript, Some(reply), parse);
      match parse(Clean(reply, Tag))
      case Some(v) => TasksField(v).Some? ==> r.value == TasksField(v).value
      case None => r.value == []
    ensures var r := Extract(transcript, Some(reply), parse);
      r.value != [] ==> parse(Clean(reply, Tag)).Some? && TasksField(parse(Clean(reply, Tag)).value).Some?
  {
  }

  /** A payload without backticks wrapped as "```json" + payload + "```" gives
      the same tasks as the bare payload. */
  lemma ExtractFencedRoundTrip(transcript: string, payload: string, parse: Parser)
    requires NoBackticks(payload)
    ensures Extract(transcript, Some(Fence + Tag + payload + Fence), parse) == Extract(transcript, Some(payload), parse)
  {
    FencedRoundTrip(payload, Tag);
  }

  /** The regular expression tries "```json" before "```", so a bare fence
      directly followed by a payload that starts with "json" loses those four
      letters as well. */
  lemma BareFenceSwallowsJsonPrefix()
    ensures Clean(Fence + "jsonify" + Fence, Tag) == "ify"
  {
    var w := Fence + "jsonify" + Fence;
    assert Fence + Tag <= w;
    assert w[|Fence + Tag|..] == "ify" + Fence;
    RemoveFencesSkipsPlainPrefix("ify", Fence, Tag);
    assert RemoveFences(Fence, Tag) == [];
    assert RemoveFences(w, Tag) == "ify";
    TrimFixed("ify");
  }
}

=== FILE: summary.dfy ===
/**
 `getSummary`: a falsy transcript is rejected up front; otherwise one prompt is
 sent and the reply is returned with every "```" removed and whitespace
 trimmed, or `null` when the model call fails.
 */
module Summary {
  import opened Wrappers
  import opened Text
  import opened ModelCall

  /** The instruction text that precedes the transcript in the prompt. */
  const Instructions: string :=
    "Summarize the following transcript. Return a concise summary in plain text:\n"
    + "  " + TranscriptLabel

  /** `data.replace(/```/g, "").trim()`. */
  function CleanSummary(reply: string): (r: string)
    ensures !ContainsFence(r)
    ensures Trimmed(r)
  {
    Clean(reply, "")
  }

  /** `getSummary(transcript)`. */
  function GetSummary(transcript: Option<string>, reply: Option<string>): (r: Call<Option<string>>)
    ensures r.Raised? <==> Refuses(transcript)
    ensures r.Raised? ==> r.message == "Transcript is required"
    ensures r.Returned? ==> r.prompts == [Prompt(Instructions, transcript.value)]
    ensures r.Returned? ==> (r.value.None? <==> reply.None?)
    ensures r.Returned? && r.value.Some? ==> !ContainsFence(r.value.value) && Trimmed(r.value.value)
  {
    if Refuses(transcript) then Raised("Transcript is required")
    else
      var summary := match reply
        case None => None
        case Some(text) => Some(CleanSummary(text));
      Returned([Prompt(Instructions, transcript.value)], summary)
  }

  /** A reply without backticks comes back trimmed and otherwise unchanged. */
  lemma PlainReplyOnlyTrimmed(transcript: string, reply: string)
    requires transcript != "" && NoBackticks(reply)
    ensures GetSummary(Some(transcript), Some(reply)) == Returned([Prompt(Instructions, transcript)], Some(Trim(reply)))
  {
    CleanPlainText(reply, "");
  }

  /** Cleaning an already-cleaned summary changes nothing. */
  lemma CleanSummaryIdempotent(reply: string)
    ensures CleanSummary(CleanSummary(reply)) == CleanSummary(reply)
  {
    CleanIdempotent(reply, "");
  }

  /** A reply fenced as "```" + text + "```" summarises to the bare text's summary. */
  lemma FencedReplyUnwrapped(transcript: string, text: string)
    requires transcript != "" && NoBackticks(text)
    ensures GetSummary(Some(transcript), Some(Fence + text + Fence)) == GetSummary(Some(transcript), Some(text))
  {
    FencedRoundTrip(text, "");
    assert Fence + "" + text + Fence == Fence + text + Fence;
  }
}

=== FILE: task_extractor.dfy ===
/**
 The server's task extractor (`extractTasks` in the task-extractor middleware):
 a falsy transcript is rejected up front; otherwise one prompt is sent, the
 reply's outer-brace span is parsed and its `tasks` array returned, and every
 failure inside the try block degrades to the empty list.
 */
module TaskExtractor {
  import opened Wrappers
  import opened JsonValues
  import opened Text
  import opened ModelCall

  /** The instruction text that precedes the transcript in the prompt. */
  const Instructions: string :=
    "Extract tasks from the transcript and provide due dates, responsible persons, priority, and if they can be scheduled. Return a valid JSON object with only the JSON, nothing else:\n"
    + "\t{\n"
    + "\t  \"tasks\": [\n"
    + "\t    { \"title\": \"Task title\", \"description\": \"Task details\", \"due_date\": \"YYYY-MM-DD\", \"assigned_to\": \"Person name\", \"priority\": \"High/Medium/Low\", \"canSchedule\": true/false }\n"
    + "\t  ]\n"
    + "\t}\n"
    + "\tDO NOT include explanations, formatting, or extra text.\n"
    + "\t" + TranscriptLabel

  /** The body of the try block once the reply text is in hand. */
  function TasksFromReply(reply: string, parse: Parser): (r: seq<Json>)
    ensures BraceSpan(reply).None? ==> r == []
    ensures r != [] ==>
      && BraceSpan(reply).Some?
      && parse(Trim(BraceSpan(reply).value)).Some?
      && TasksField(parse(Trim(BraceSpan(reply).value)).value) == Some(r)
  {
    match BraceSpan(reply)
    case None => []
    case Some(span) =>
      match parse(Trim(span))
      case None => []
      case Some(v) => TasksField(v).GetOr([])
  }

  /** Once the span is found, the parser sees exactly the span: its `trim()`
      is a no-op. */
  lemma TasksFromSpan(reply: string, parse: Parser, span: string)
    requires BraceSpan(reply) == Some(span)
    ensures TasksFromReply(reply, parse)
         == (if parse(span).None? then [] else TasksField(parse(span).value).GetOr([]))
  {
    TrimBraceSpan(reply);
  }

  /** What the try block returns for the model's reply; `None` is a failed call. */
  function ReplyTasks(reply: Option<string>, parse: Parser): seq<Json> {
    match reply
    case None => []
    case Some(text) => TasksFromReply(text, parse)
  }

  /** `extractTasks(transcript)`: `transcript` is `None` for `null`/`undefined`. */
  function Extract(transcript: Option<string>, reply: Option<string>, parse: Parser): (r: Call<seq<Json>>)
    ensures r.Raised? <==> Refuses(transcript)
    ensures r.Raised? ==> r.message == "Transcript is required"
    ensures r.Returned? ==> r.prompts == [Prompt(Instructions, transcript.value)]
    ensures r.Returned? && reply.None? ==> r.value == []
  {
    if Refuses(transcript) then Raised("Transcript is required")
    else Returned([Prompt(Instructions, transcript.value)], ReplyTasks(reply, parse))
  }

  /** When the outer-brace span parses to an object with an array `tasks`, the
      result is that array, element for element: the `trim()` the code applies
      to the span is a no-op, so the parser sees exactly the span. */
  lemma ExtractSuccess(transcript: string, reply: string, parse: Parser, span: string, v: Json)
    requires transcript != ""
    requires BraceSpan(reply) == Some(span) && parse(span) == Some(v)
    requires TasksField(v).Some?
    ensures Extract(Some(transcript), Some(reply), parse) == Returned([Prompt(Instructions, transcript)], TasksField(v).value)
  {
    TasksFromSpan(reply, parse, span);
  }

  /** A reply without a "{" followed somewhere by a "}" yields no tasks; it does
      not raise. */
  lemma ExtractNoBraces(transcript: string, reply: string, parse: Parser)
    requires transcript != ""
    requires forall i, j :: 0 <= i < j < |reply| ==> !(reply[i] == '{' && reply[j] == '}')
    ensures Extract(Some(transcript), Some(reply), parse) == Returned([Prompt(Instructions, transcript)], [])
  {
  }

  /** A span the parser rejects, or a parsed value without an array `tasks`
      field, yields no tasks. */
  lemma ExtractInvalid(transcript: string, reply: string, parse: Parser, span: string)
    requires transcript != ""
    requires BraceSpan(reply) == Some(span)
    requires parse(span).None? || TasksField(parse(span).value).None?
    ensures Extract(Some(transcript), Some(reply), parse) == Returned([Prompt(Instructions, transcript)], [])
  {
    TasksFromSpan(reply, parse, span);
  }

  /** A reply wrapped in Markdown fences or commentary without braces gives the
      same tasks as the bare reply. */
  lemma ExtractIgnoresWrapping(transcript: string, pre: string, reply: string, post: string, parse: Parser)
    requires NoBraces(pre) && NoBraces(post)
    ensures Extract(Some(transcript), Some(pre + reply + post), parse) == Extract(Some(transcript), Some(reply), parse)
  {
    BraceSpanIgnoresWrapping(pre, reply, post);
  }
}

=== FILE: text.dfy ===
/**
 The string operations the response sanitisers are built from: JavaScript's
 `String.prototype.trim`, global removal of Markdown code-fence markers, and
 the outer-brace span that the regular expression `/\{[\s\S]*\}/` matches.
 */
module Text {
  import opened Wrappers

  /** ECMAScript WhiteSpace and LineTerminator code points: what `trim` removes. */
  predicate IsSpace(c: char) {
    || c == '\t' || c == '\n' || c == '\U{000B}' || c == '\U{000C}' || c == '\r'
    || c == ' ' || c == '\U{00A0}' || c == '\U{1680}'
    || ('\U{2000}' <= c <= '\U{200A}')
    || c == '\U{2028}' || c == '\U{2029}' || c == '\U{202F}' || c == '\U{205F}'
    || c == '\U{3000}' || c == '\U{FEFF}'
  }

  predicate AllSpace(s: string) {
    forall k :: 0 <= k < |s| ==> IsSpace(s[k])
  }

  /** True when `s` neither begins nor ends with whitespace. */
  predicate Trimmed(s: string) {
    s == [] || (!IsSpace(s[0]) && !IsSpace(s[|s| - 1]))
  }

  /** Length of the longest whitespace prefix of `s`. */
  function LeadingSpaces(s: string): (n: nat)
    ensures n <= |s|
    ensures AllSpace(s[..n])
    ensures n < |s| ==> !IsSpace(s[n])
  {
    if |s| > 0 && IsSpace(s[0]) then 1 + LeadingSpaces(s[1..]) else 0
  }

  /** Length of the longest whitespace suffix of `s`. */
  function TrailingSpaces(s: string): (n: nat)
    ensures n <= |s|
    ensures AllSpace(s[|s| - n..])
    ensures n < |s| ==> !IsSpace(s[|s| - 1 - n])
  {
    if |s| > 0 && IsSpace(s[|s| - 1]) then 1 + TrailingSpaces(s[..|s| - 1]) else 0
  }

  /** `s.trim()`: `s` without its whitespace prefix and whitespace suffix. */
  function Trim(s: string): (r: string)
    ensures Trimmed(r)
    ensures var i := LeadingSpaces(s);
      i + |r| <= |s| && r == s[i..i + |r|] && AllSpace(s[..i]) && AllSpace(s[i + |r|..])
  {
    var i := LeadingSpaces(s);
    var n := TrailingSpaces(s[i..]);
    TrimEnds(s, i, s[i..], n);
    s[i..|s| - n]
  }

  /** The pieces `Trim` cuts `s` into, given its two whitespace counts. */
  lemma TrimEnds(s: string, i: nat, t: string, n: nat)
    requires i <= |s| && t == s[i..] && n <= |t|
    requires AllSpace(t[|t| - n..])
    requires n < |t| ==> !IsSpace(t[|t| - 1 - n])
    ensures AllSpace(s[|s| - n..])
    ensures i + n < |s| ==> !IsSpace(s[|s| - 1 - n])
  {
    assert s[|s| - n..] == t[|t| - n..];
    if i + n < |s| {
      assert t[|t| - 1 - n] == s[|s| - 1 - n];
    }
  }

  /** A string that does not start or end with whitespace is its own trim. */
  lemma TrimFixed(s: string)
    requires Trimmed(s)
    ensures Trim(s) == s
  {
    assert LeadingSpaces(s) == 0;
    assert TrailingSpaces(s) == 0;
  }

  lemma TrimIdempotent(s: string)
    ensures Trim(Trim(s)) == Trim(s)
  {
    TrimFixed(Trim(s));
  }

  // ---------------------------------------------------------------------------
  // Code fences

  const Fence: string := "```"

  /** A run of three backticks starts at index `i` of `s`. */
  predicate FenceAt(s: string, i: int) {
    0 <= i && i + 3 <= |s| && s[i] == '`' && s[i + 1] == '`' && s[i + 2] == '`'
  }

  predicate ContainsFence(s: string) {
    exists i :: 0 <= i < |s| && FenceAt(s, i)
  }

  predicate NoBackticks(s: string) {
    forall k :: 0 <= k < |s| ==> s[k] != '`'
  }

  /** `s.replace(/```TAG|```/g, "")`: a left-to-right scan that, at each
      position, deletes "```" followed by `tag` if present, else a bare "```",
      else keeps one character. `tag == "json"` is the task sanitiser's regular
      expression and `tag == ""` the summary's. */
  function RemoveFences(s: string, tag: string): (r: string)
    ensures |r| <= |s|
    decreases |s|
  {
    if Fence + tag <= s then RemoveFences(s[|Fence + tag|..], tag)
    else if Fence <= s then RemoveFences(s[|Fence|..], tag)
    else if s == [] then []
    else [s[0]] + RemoveFences(s[1..], tag)
  }

  /** The removal only deletes: every character of the result, counted with
      multiplicity, comes from the input. */
  lemma {:induction false} RemoveFencesOnlyDeletes(s: string, tag: string)
    ensures multiset(RemoveFences(s, tag)) <= multiset(s)
    decreases |s|
  {
    if Fence + tag <= s {
      RemoveFencesOnlyDeletes(s[|Fence + tag|..], tag);
      assert s == s[..|Fence + tag|] + s[|Fence + tag|..];
    } else if Fence <= s {
      RemoveFencesOnlyDeletes(s[|Fence|..], tag);
      assert s == s[..|Fence|] + s[|Fence|..];
    } else if s != [] {
      RemoveFencesOnlyDeletes(s[1..], tag);
      assert s == [s[0]] + s[1..];
    }
  }

  /** The tagged marker begins with the bare one. */
  lemma MarkerExtendsFence(s: string, tag: string)
    ensures Fence + tag <= s ==> Fence <= s
  {
    if Fence + tag <= s {
      assert s[..|Fence|] == (Fence + tag)[..|Fence|];
    }
  }

  /** Neither marker can start at a character other than a backtick. */
  lemma NoMarkerAt(s: string, tag: string)
    requires |s| > 0 && s[0] != '`'
    ensures !(Fence <= s) && !(Fence + tag <= s)
  {
    assert (Fence + tag)[0] == '`';
  }

  /** A character other than a backtick at the head of the input survives at
      the head of the output. */
  lemma RemoveFencesKeepsHead(s: string, tag: string)
    requires |s| > 0 && s[0] != '`'
    ensures RemoveFences(s, tag) == [s[0]] + RemoveFences(s[1..], tag)
  {
    NoMarkerAt(s, tag);
  }

  /** A string with no backtick is a prefix the scan copies unchanged. */
  lemma {:induction false} RemoveFencesSkipsPlainPrefix(p: string, rest: string, tag: string)
    requires NoBackticks(p)
    ensures RemoveFences(p + rest, tag) == p + RemoveFences(rest, tag)
    decreases |p|
  {
    if p == [] {
      assert p + rest == rest;
    } else {
      var s := p + rest;
      RemoveFencesKeepsHead(s, tag);
      assert s[1..] == p[1..] + rest;
      RemoveFencesSkipsPlainPrefix(p[1..], rest, tag);
      assert p == [p[0]] + p[1..];
    }
  }

  /** After the scan no "```" is left, even where deletions bring backticks
      together: every surviving run of backticks is shorter than three. */
  lemma {:induction false} RemoveFencesLeavesNoFence(s: string, tag: string)
    ensures !ContainsFence(RemoveFences(s, tag))
    decreases |s|
  {
    if Fence + tag <= s {
      RemoveFencesLeavesNoFence(s[|Fence + tag|..], tag);
    } else if Fence <= s {
      RemoveFencesLeavesNoFence(s[|Fence|..], tag);
    } else if s != [] {
      var rest := RemoveFences(s[1..], tag);
      RemoveFencesLeavesNoFence(s[1..], tag);
      var r := [s[0]] + rest;
      assert r == RemoveFences(s, tag);
      forall i | FenceAt(r, i) ensures false {
        if i == 0 {
          // s[0] and the first two characters of `rest` are all backticks.
          if s[1] != '`' {
            RemoveFencesKeepsHead(s[1..], tag);
          } else {
            // s starts with two backticks but not three.
            var t := s[1..];
            MarkerExtendsFence(t, tag);
            assert !(Fence <= t) && !(Fence + tag <= t);
            assert rest == [t[0]] + RemoveFences(t[1..], tag);
            assert t[1..] == s[2..];
            if |s| > 2 {
              assert s[2] != '`';
              RemoveFencesKeepsHead(s[2..], tag);
            }
          }
        } else {
          assert FenceAt(rest, i - 1);
        }
      }
    }
  }

  /** Text without "```" passes through the scan unchanged. */
  lemma {:induction false} RemoveFencesNoop(s: string, tag: string)
    requires !ContainsFence(s)
    ensures RemoveFences(s, tag) == s
    decreases |s|
  {
    if s != [] {
      assert !FenceAt(s, 0);
      MarkerExtendsFence(s, tag);
      assert !(Fence <= s) && !(Fence + tag <= s);
      forall i | 0 <= i < |s| - 1 && FenceAt(s[1..], i) ensures FenceAt(s, i + 1) {}
      RemoveFencesNoop(s[1..], tag);
    }
  }

  /** Trimming keeps a substring, so it cannot create a fence. */
  lemma TrimKeepsNoFence(s: string)
    requires !ContainsFence(s)
    ensures !ContainsFence(Trim(s))
  {
    var r := Trim(s);
    var i := LeadingSpaces(s);
    forall k | FenceAt(r, k) ensures false {
      assert FenceAt(s, i + k);
    }
  }

  /** The sanitiser's cleaning step: fence removal followed by `trim()`. */
  function Clean(s: string, tag: string): (r: string)
    ensures !ContainsFence(r)
    ensures Trimmed(r)
  {
    RemoveFencesLeavesNoFence(s, tag);
    TrimKeepsNoFence(RemoveFences(s, tag));
    Trim(RemoveFences(s, tag))
  }

  /** Cleaning twice is cleaning once. */
  lemma CleanIdempotent(s: string, tag: string)
    ensures Clean(Clean(s, tag), tag) == Clean(s, tag)
  {
    var c := Clean(s, tag);
    RemoveFencesNoop(c, tag);
    TrimFixed(c);
  }

  /** Text without backticks is only trimmed. */
  lemma CleanPlainText(s: string, tag: string)
    requires NoBackticks(s)
    ensures Clean(s, tag) == Trim(s)
  {
    RemoveFencesNoop(s, tag);
  }

  /** A payload wrapped as "```TAG" + p + "```" cleans to the bare payload's
      cleaning, provided the payload has no backticks of its own. */
  lemma FencedRoundTrip(p: string, tag: string)
    requires NoBackticks(p)
    ensures Clean(Fence + tag + p + Fence, tag) == Clean(p, tag)
  {
    var w := Fence + tag + p + Fence;
    assert Fence + tag <= w;
    assert w[|Fence + tag|..] == p + Fence;
    RemoveFencesSkipsPlainPrefix(p, Fence, tag);
    assert RemoveFences(Fence, tag) == [] by {
      assert Fence[|Fence|..] == [];
      if Fence + tag <= Fence {
        assert tag == [];
        assert Fence[|Fence + tag|..] == [];
      }
    }
    assert RemoveFences(w, tag) == p;
    assert p + [] == p;
    RemoveFencesNoop(p, tag);
  }

  // ---------------------------------------------------------------------------
  // Outer-brace span

  /** Index of the first `c` in `s`. */
  function FirstIndexOf(s: string, c: char): (r: Option<nat>)
    ensures r.Some? ==> r.value < |s| && s[r.value] == c
    ensures forall k :: 0 <= k < |s| && (r.None? || k < r.value) ==> s[k] != c
  {
    if s == [] then None
    else if s[0] == c then Some(0)
    else match FirstIndexOf(s[1..], c)
      case None => None
      case Some(i) => Some(i + 1)
  }

  /** Index of the last `c` in `s`. */
  function LastIndexOf(s: string, c: char): (r: Option<nat>)
    ensures r.Some? ==> r.value < |s| && s[r.value] == c
    ensures forall k :: 0 <= k < |s| && (r.None? || r.value < k) ==> s[k] != c
  {
    if s == [] then None
    else if s[|s| - 1] == c then Some(|s| - 1)
    else LastIndexOf(s[..|s| - 1], c)
  }

  /** `s[i..j+1]` is the leftmost-longest match of `/\{[\s\S]*\}/` in `s`:
      it opens at the first "{" of `s` and closes at the last "}" after it. */
  ghost predicate IsOuterSpan(s: string, i: int, j: int) {
    && 0 <= i < j < |s| && s[i] == '{' && s[j] == '}'
    && (forall k :: 0 <= k < i ==> s[k] != '{')
    && (forall k :: j < k < |s| ==> s[k] != '}')
  }

  /** Some "{" of `s` has a "}" somewhere after it. */
  ghost predicate HasBracePair(s: string) {
    exists i, j :: 0 <= i < j < |s| && s[i] == '{' && s[j] == '}'
  }

  /** Start and end index of the regular expression's match, if any. */
  function BraceBounds(s: string): (r: Option<(nat, nat)>)
    ensures r.Some? ==> IsOuterSpan(s, r.value.0, r.value.1)
    ensures r.None? <==> !HasBracePair(s)
  {
    match (FirstIndexOf(s, '{'), LastIndexOf(s, '}'))
    case (Some(i), Some(j)) =>
      if i < j then Some((i, j))
      else None
    case _ => None
  }

  /** `t` is the slice of `s` from its first "{" to the last "}" after it. */
  ghost predicate IsOuterSlice(s: string, t: string) {
    exists i, j :: IsOuterSpan(s, i, j) && t == s[i..j + 1]
  }

  /** `s.match(/\{[\s\S]*\}/)?.[0]`. */
  function BraceSpan(s: string): (r: Option<string>)
    ensures r.Some? <==> HasBracePair(s)
    ensures r.Some? ==> |r.value| >= 2 && r.value[0] == '{' && r.value[|r.value| - 1] == '}'
    ensures r.Some? ==> IsOuterSlice(s, r.value)
  {
    match BraceBounds(s)
    case None => None
    case Some((i, j)) => Some(s[i..j + 1])
  }

  /** The matched span begins with "{" and ends with "}", so `trim()` on it
      changes nothing. */
  lemma TrimBraceSpan(s: string)
    requires BraceSpan(s).Some?
    ensures Trim(BraceSpan(s).value) == BraceSpan(s).value
  {
    TrimFixed(BraceSpan(s).value);
  }

  predicate NoBraces(s: string) {
    forall k :: 0 <= k < |s| ==> s[k] != '{' && s[k] != '}'
  }

  /** The indices of `w == pre + p + post` seen from its three parts. */
  lemma WrappedIndex(pre: string, p: string, post: string, w: string)
    requires w == pre + p + post
    ensures |w| == |pre| + |p| + |post|
    ensures forall k :: 0 <= k < |pre| ==> w[k] == pre[k]
    ensures forall k :: 0 <= k < |p| ==> w[|pre| + k] == p[k]
    ensures forall k :: 0 <= k < |post| ==> w[|pre| + |p| + k] == post[k]
  {
  }

  /** Every brace of a wrapped payload lies inside the payload. */
  lemma WrappedBraces(pre: string, p: string, post: string, w: string)
    requires w == pre + p + post && NoBraces(pre) && NoBraces(post)
    ensures forall k :: 0 <= k < |w| && (w[k] == '{' || w[k] == '}') ==>
      |pre| <= k < |pre| + |p| && p[k - |pre|] == w[k]
  {
    WrappedIndex(pre, p, post, w);
  }

  lemma WrappedBracePair(pre: string, p: string, post: string, w: string)
    requires w == pre + p + post && NoBraces(pre) && NoBraces(post)
    ensures HasBracePair(w) <==> HasBracePair(p)
  {
    WrappedIndex(pre, p, post, w);
    WrappedBraces(pre, p, post, w);
    if HasBracePair(w) {
      var a, b :| 0 <= a < b < |w| && w[a] == '{' && w[b] == '}';
      assert p[a - |pre|] == '{' && p[b - |pre|] == '}';
    }
    if HasBracePair(p) {
      var a, b :| 0 <= a < b < |p| && p[a] == '{' && p[b] == '}';
      assert w[|pre| + a] == '{' && w[|pre| + b] == '}';
    }
  }

  lemma WrappedOuterSpan(pre: string, p: string, post: string, w: string, i: int, j: int)
    requires w == pre + p + post && NoBraces(pre) && NoBraces(post)
    requires IsOuterSpan(p, i, j)
    ensures IsOuterSpan(w, |pre| + i, |pre| + j)
    ensures w[|pre| + i..|pre| + j + 1] == p[i..j + 1]
  {
    WrappedIndex(pre, p, post, w);
    WrappedBraces(pre, p, post, w);
    assert w[|pre| + i] == '{' && w[|pre| + j] == '}';
  }

  /** The leftmost-longest match is unique. */
  lemma OuterSpanUnique(s: string, i: int, j: int, i': int, j': int)
    requires IsOuterSpan(s, i, j) && IsOuterSpan(s, i', j')
    ensures i == i' && j == j'
  {
  }

  /** The match is found wherever the leftmost-longest span lies. */
  lemma BraceSpanAt(s: string, i: int, j: int)
    requires IsOuterSpan(s, i, j)
    ensures BraceSpan(s) == Some(s[i..j + 1])
  {
    assert HasBracePair(s);
    var (i', j') := BraceBounds(s).value;
    OuterSpanUnique(s, i', j', i, j);
  }

  /** Commentary or fence markers around a payload do not move the span, as long
      as they contain no braces themselves. */
  lemma BraceSpanIgnoresWrapping(pre: string, p: string, post: string)
    requires NoBraces(pre) && NoBraces(post)
    ensures BraceSpan(pre + p + post) == BraceSpan(p)
  {
    WrappedBracePair(pre, p, post, pre + p + post);
    if HasBracePair(p) {
      var (i, j) := BraceBounds(p).value;
      BraceSpanAt(p, i, j);
      WrappedSpan(pre, p, post, i, j);
    }
  }

  lemma WrappedSpan(pre: string, p: string, post: string, i: int, j: int)
    requires NoBraces(pre) && NoBraces(post) && IsOuterSpan(p, i, j)
    ensures BraceSpan(pre + p + post) == Some(p[i..j + 1])
  {
    var w := pre + p + post;
    WrappedOuterSpan(pre, p, post, w, i, j);
    BraceSpanAt(w, |pre| + i, |pre| + j);
  }

  /** Text that itself opens with "{" and closes with "}" is its own span. */
  lemma BracedTextIsItsSpan(p: string)
    requires |p| >= 2 && p[0] == '{' && p[|p| - 1] == '}'
    ensures BraceSpan(p) == Some(p)
  {
    assert IsOuterSpan(p, 0, |p| - 1);
    var (i, j) := BraceBounds(p).value;
    OuterSpanUnique(p, i, j, 0, |p| - 1);
    assert p[0..|p|] == p;
  }
}

=== FILE: wrappers.dfy ===
/** Optional values: the model's stand-in for JavaScript's `null`/`undefined`. */
module Wrappers {

  datatype Option<+T> = None | Some(value: T) {

    /** The value, or `default` when there is none. */
    function GetOr(default: T): T {
      match this
      case Some(v) => v
      case None => default
    }
  }
}
